=== FILE: README.md ===
# WealthEase blog: a verified model of the content store

WealthEase is a Next.js blog whose only real logic is a small content
store of **articles** and **categories** kept in two JSON files, the admin
endpoints that create records in it, the public endpoint that lists the
published articles, and the browser-side helpers of the admin interface.
This Dafny project models that core as pure functions over immutable data
and proves what each part promises.

- `records.dfy`: the `Article` and `Category` records and the request bodies they are created from.
- `storage.dfy`: `lib/storage.ts`. The file system is an abstract `Store`: each file is
  `Missing`, `Unparsable(text)` or `Parsed(items)`, plus a log of backup copies.
  Loading falls back to `[]` or the five built-in categories, saving takes a
  best-effort backup and installs the new collection, and the two validators.
- `admin_articles_route.dfy`, `admin_categories_route.dfy`: the admin `GET` and
  `POST` handlers (validate, load, build the record, append, save).
- `public_articles.dfy`: the public `GET`. It drops explicit drafts, sorts with a
  stable sort by date (newest first), and joins category ids to names.
- `api.dfy`, `admin_client.dfy`: the JSON envelope, what `apiRequest` makes of
  it in the browser, the `AdminService` wrappers and `getStats`.
- `article_editor.dfy`: the editor form's initial values, its tag text codec,
  the body it submits and the errors it shows.
- `articles_page.dfy`: the admin list's search filter, delete update and status label.
- `consistency.dfy`: properties across parts. It covers the two places where the
  parts disagree (described below) and the path from the editor through the
  create endpoint back to the messages on screen.
- `optional.dfy`, `seqs.dfy`, `text.dfy`, `dates.dfy`, `stable_sort.dfy`: vocabulary.
  That is `Option`, order-preserving `Filter` and subsequences, JavaScript's
  `trim`/`toLowerCase`/`includes`/`split`/`join`, ISO dates, and a stable insertion sort.

The generated id, the clock readings and whether the backup copy succeeds
are parameters of the operations that use them.

Two inconsistencies of the system are kept as they are and stated as lemmas:

- An article whose `published` is unset is shown by the public list and
  labelled "已发布" in the admin list, yet `getStats` counts it as a draft
  (`Consistency.UnsetArticleIsPublicButCountedAsDraft`,
  `Consistency.PublicListCountsUnsetArticles`).
- The editor stores a category's *name* in `category`, while the public list
  looks the value up as a category *id*. With the default categories the
  lookup never succeeds for any name the editor offers
  (`Consistency.EditorCategoryIsNotResolved`),
  while an id would be resolved (`Consistency.CategoryIdIsResolved`).

A data file that exists but does not parse is treated exactly like a missing
one: the articles load as `[]` and the categories as the five defaults
(lib/storage.ts:70-76 and 98-103). No error is reported to the caller.

## Model

| member | source | states |
|---|---|---|
| Storage.ValidateArticle | lib/storage.ts:174-194 | one message per absent or whitespace-only field among title, content, excerpt, category, in that order (an ordered sub-list of the four messages), at most four, and empty exactly when all four are present and non-blank |
| Storage.ValidateArticleIgnoresOtherFields | lib/storage.ts:174-194 | two bodies that agree on title, content, excerpt and category get the same messages |
| Storage.SelectSpec | lib/storage.ts:175-193 | the messages pushed by a sequence of guarded checks keep the check order and contain a message exactly when its check fired |
| Storage.ValidateCategory | lib/storage.ts:197-205 | exactly the one name message when the name is absent or blank, otherwise none |
| Storage.LoadArticlesFallback | lib/storage.ts:67-77 | a missing or unparsable articles file loads as the empty list |
| Storage.DefaultCategories | lib/storage.ts:103-149 | five categories with the five fixed ids, pairwise distinct ids and names, article count 0, timestamps from ten successive clock readings |
| Storage.LoadCategoriesFallback | lib/storage.ts:95-151 | a missing or unparsable categories file loads as exactly the five defaults |
| Storage.SaveArticles | lib/storage.ts:24-36 | the new collection is installed even when the backup fails; the categories file is untouched; the log grows by one copy of the old content exactly when the file existed and the copy succeeded |
| Storage.SaveCategories | lib/storage.ts:154-166 | the same for the categories file, leaving the articles file untouched |
| Storage.SaveArticlesRoundTrip | lib/storage.ts:80-92 | loading after saving articles returns the saved collection, and the categories load as before |
| Storage.SaveCategoriesRoundTrip | lib/storage.ts:154-166 | loading after saving categories returns the saved collection, and the articles load as before |
| AdminArticlesRoute.Get | app/api/admin/articles/route.ts:4-7 | answers the stored collection unchanged, `[]` when there is none |
| AdminArticlesRoute.NewArticle | app/api/admin/articles/route.ts:31-36 | the record carries the generated id and clock values and copies every other body field verbatim |
| AdminArticlesRoute.Post | app/api/admin/articles/route.ts:17-41 | an invalid body gets exactly the validator's messages and nothing is written; a valid body is appended after the unchanged old collection, the categories file is untouched, and the answer is the appended record |
| AdminArticlesRoute.PostIgnoresClientStamps | app/api/admin/articles/route.ts:31-36 | whatever id and timestamps the body carries (or lacks), the answer and the store are the same |
| AdminArticlesRoute.PostOverUnparsableFile | app/api/admin/articles/route.ts:30-40 | creating over an unparsable file leaves only the new record, with the old text kept in the backup log |
| AdminCategoriesRoute.Get | app/api/admin/categories/route.ts:4-7 | answers the stored collection, or the five defaults when there is none |
| AdminCategoriesRoute.NewCategory | app/api/admin/categories/route.ts:31-37 | the record has article count 0, the generated id and clock values, and the body's name, description and colour |
| AdminCategoriesRoute.Post | app/api/admin/categories/route.ts:17-42 | an invalid body gets exactly the validator's message and nothing is written; otherwise the loaded collection is kept in order with the new category last, whose article count is 0 whatever the body says |
| AdminCategoriesRoute.PostOnFreshStore | app/api/admin/categories/route.ts:30-40 | with no categories file, the five defaults followed by the new category are persisted and no backup is taken |
| PublicArticles.FindCategory | app/api/articles/route.ts:18 | nothing is found exactly when no category has the id; otherwise the first category with that id |
| PublicArticles.ResolveCategory | app/api/articles/route.ts:17-23 | `category` becomes the first matching category's name, kept as is when there is no match or the name is empty; every other field is unchanged |
| PublicArticles.SortedListed | app/api/articles/route.ts:12-14 | a permutation of the non-draft articles (same multiset), ordered by date with the newest first |
| PublicArticles.ListPublished | app/api/articles/route.ts:12-23 | a permutation of the category-resolved non-draft articles, date-descending, position by position the resolved form of the stably sorted list, none with `published` false |
| PublicArticles.ListPublishedKeepsDateTies | app/api/articles/route.ts:12-14 | two listed articles with the same date appear in the public list in their collection order (the sort is stable) |
| PublicArticles.SortedListedKeepsDateTies | app/api/articles/route.ts:12-14 | the same, for the sorted list before the category join |
| PublicArticles.Get | app/api/articles/route.ts:4-25 | always a success whose data is the projected list of the loaded collections (so it carries that list's permutation, order and stability facts); an empty collection gives empty data |
| StableSort.Sort | app/api/articles/route.ts:14 | the result is a permutation of the input sorted by descending key, and for each key its elements keep their input order |
| Dates.DateKeyIsChronological | app/api/articles/route.ts:14 | the key of an earlier calendar day is smaller |
| Api.Transmit | app/api/admin/articles/route.ts:17-49 | only a success arrives with an ok status, carrying `success: true` and `data`; a validation failure carries `success: false` and only `errors`, a thrown error only `error` |
| AdminClient.FailureMessages | lib/admin.ts:47 | the body's `errors` if present, else the singleton of a non-empty `error`, else "请求失败" |
| AdminClient.ApiRequest | lib/admin.ts:33-59 | success exactly when the response is ok, with the body's data; a non-ok response fails with the body's messages; a thrown error fails with "网络请求失败" |
| AdminClient.ServerAnswerReachesClient | lib/admin.ts:33-59 | a handler's data, validation messages or error message arrive unchanged in the client's result |
| AdminClient.DataOrEmpty | lib/admin.ts:65 | the data when present, otherwise `[]` |
| AdminClient.RecordThroughRequest | lib/admin.ts:68-71 | the by-id wrappers give the record a handler answers with, and nothing after a validation failure, a handler error or a network failure |
| AdminClient.ToSaveResult | lib/admin.ts:79-83 | `success`, the record and `errors` are passed through unchanged |
| AdminClient.GetAll | lib/admin.ts:63-66 | the delivered list when the answer is ok and carries data, `[]` otherwise (a failed request or an answer without data) |
| AdminClient.CountStats | lib/admin.ts:170-175 | the totals are the collection lengths; published counts the articles whose `published` is true, drafts all others, and the two add up to all articles |
| AdminClient.GetStats | lib/admin.ts:159-176 | the counts over what was delivered: published counts the delivered articles whose `published` is true, drafts the rest; a failed articles request, or an answer without data, counts zero articles |
| AdminClient.UnsetPublishedCountsAsDraft | lib/admin.ts:173-174 | adding an article with `published` unset adds one draft and no published article |
| ArticleEditor.ParseTags | components/admin/ArticleEditor.tsx:59 | every tag is non-empty, trimmed and comma-free; the tags are the non-empty trimmed comma-separated segments, in input order, each as often as it occurs (repeats kept) |
| ArticleEditor.TrimAllAt | components/admin/ArticleEditor.tsx:59 | mapping `trim` over the segments trims each one in place |
| ArticleEditor.ParseJoinedTags | components/admin/ArticleEditor.tsx:28 | tags that are non-empty, trimmed and comma-free survive `join(', ')` followed by parsing |
| ArticleEditor.ParseBlankTags | components/admin/ArticleEditor.tsx:59 | empty, whitespace-only or comma-only text parses to no tags |
| ArticleEditor.FirstCategoryName | components/admin/ArticleEditor.tsx:27 | the first category's name, or "" when there are no categories |
| ArticleEditor.InitialForm | components/admin/ArticleEditor.tsx:21-32 | the initialiser: `published` starts true unless the article's is exactly false; the category is the article's, else the first category's name, else ""; a new article gets today's date, "5分钟" and "WealthEase". On the edit page the effect replaces this form after the first render, so its fallbacks for an article do not survive; on the new page it runs with no categories |
| ArticleEditor.SyncedForm | components/admin/ArticleEditor.tsx:36-50 | resynchronising takes date, read time and category as they are and keeps the image, author and published defaults; this is the form the user edits on the edit page |
| ArticleEditor.InitialAgreesWithSynced | components/admin/ArticleEditor.tsx:21-50 | the initial and resynchronised forms agree exactly when date, read time and category need no fallback; otherwise the first render's fallbacks are replaced by the article's own values |
| ArticleEditor.DisplayedForm | components/admin/ArticleEditor.tsx:110-121 | the form with its category following the select: with categories present it is an option's value, an option's value is kept, and no other field changes |
| ArticleEditor.Submission | components/admin/ArticleEditor.tsx:53-61 | the body carries title, content, excerpt, category, date, read time, image and author as in the form, the parsed tags and the checkbox's `published`, and no id or timestamps |
| ArticleEditor.SubmissionValidation | components/admin/ArticleEditor.tsx:53-61 | the server rejects a submitted form exactly when title, content, excerpt or category is blank, naming each blank field |
| ArticleEditor.UnchangedFormResubmits | components/admin/ArticleEditor.tsx:21-61 | opening an article that needs no fallback and submitting it unchanged sends the article's own values back |
| ArticleEditor.ErrorsAfterSubmit | components/admin/ArticleEditor.tsx:55-66 | errors are cleared, then set to the result's errors only when it failed and carries some |
| ArticlesPage.SearchFilter | app/admin/articles/page.tsx:46-50 | an order-preserving sub-list holding exactly the articles whose lower-cased title, excerpt or category contains the lower-cased term, each as often as in the list |
| ArticlesPage.EmptySearchShowsAll | app/admin/articles/page.tsx:46-50 | the empty search term keeps every article |
| ArticlesPage.SearchIgnoresCase | app/admin/articles/page.tsx:46-50 | a term and its lower-cased form select the same articles |
| ArticlesPage.AfterDelete | app/admin/articles/page.tsx:28-44 | unconfirmed: nothing changes; success: every entry with the id is gone and all others stay, in order and with their repeats; failure: the list is unchanged and the errors are shown |
| ArticlesPage.DeleteThroughService | lib/admin.ts:99-108 | a confirmed delete through `deleteArticle`: a successful answer removes every article with the id and keeps all others; a rejected one keeps the list and alerts the server's messages joined by ", ", or its error message |
| ArticlesPage.DeleteIsIdempotent | app/admin/articles/page.tsx:36 | removing the same id a second time leaves the list as it is |
| ArticlesPage.StatusLabel | app/admin/articles/page.tsx:155-159 | "草稿" exactly when `published` is false, "已发布" otherwise, including when it is unset |
| Consistency.PublicListCountsUnsetArticles | lib/admin.ts:173-174 | the public list's length is the dashboard's published count plus the number of articles whose `published` is unset |
| Consistency.UnsetArticleIsPublicButCountedAsDraft | app/api/articles/route.ts:13 | an article with `published` unset is listed publicly and labelled published, yet counted as a draft |
| Consistency.LabelAgreesWithPublicList | app/admin/articles/page.tsx:159 | the admin label says published exactly for the articles the public list shows |
| Consistency.DefaultNamesAreNotIds | lib/storage.ts:103-149 | no default category's id is the name of a default category |
| Consistency.EditorCategoryIsNotResolved | components/admin/ArticleEditor.tsx:110-121 | with the default categories, any category the editor offers (a name) is left as is by the public list's lookup by id |
| Consistency.PreselectedCategoryIsNotResolved | components/admin/ArticleEditor.tsx:27 | the category the initialiser preselects when mounted with the default categories is not resolved by the public list |
| Consistency.NewPageSubmitsNoCategory | app/admin/articles/new/page.tsx:11-64 | the new page mounts the editor with no categories, so the untouched form's category is "" although the select displays the first default, and the server answers with the category message |
| Consistency.NewPageSubmitsShownCategory | app/admin/articles/new/page.tsx:11-64 | with the form following the select, the untouched new form submits the first default's name, passes the category check, and keeps that name in the public list |
| Consistency.CategoryIdIsResolved | app/api/articles/route.ts:18-21 | an article holding a default category's id is shown with that category's name |
| Consistency.CreatePageResult | app/admin/articles/new/page.tsx:27-43 | the page's submit handler reports the service's success, and its errors on failure |
| Consistency.EditorShowsServerValidation | components/admin/ArticleEditor.tsx:53-66 | submitting the form through the create endpoint shows exactly the server's validation messages, and none exactly when every required field is filled |
| Seqs.Filter | app/admin/articles/page.tsx:36 | the kept elements, in order (a sub-list), are exactly those satisfying the predicate |
| Seqs.FilterCounts | app/admin/articles/page.tsx:36 | each kept value occurs in the result as often as in the input, every other value not at all (with the sub-list clause this fixes the result) |
| Seqs.FilterOrder | app/api/articles/route.ts:13 | two kept elements keep their relative order |
| Text.Trim | lib/storage.ts:177 | the result is the input with a whitespace prefix and suffix cut off, has no leading or trailing whitespace (so the cuts are maximal), and is empty exactly when the input is all whitespace |
| Text.IncludesIffOccurs | app/admin/articles/page.tsx:47 | `includes` holds exactly when the term occurs at some position |
| Text.SplitJoin | components/admin/ArticleEditor.tsx:59 | joining separator-free parts and splitting again gives the parts back |
| Text.JoinSplit | components/admin/ArticleEditor.tsx:59 | splitting and joining with the same separator gives the text back |

## Left out

- File I/O: `ensureDataDir`, the timestamped backup paths and `JSON.stringify` formatting are not modelled. A file is a value of `Content`, and writing then reading JSON is the identity.
- A JSON file that parses to something other than an array is not modelled: `Parsed` always holds a collection.
- `generateId` (lib/storage.ts:169-171) uses `Date.now` and `Math.random`. It is a parameter, and its uniqueness is not assumed or proved.
- The clock: every `new Date()` reading is a parameter; the two timestamps of a new record are independent.
- Request bodies whose `date`, `readTime` or `tags` are missing or not strings, or that carry extra keys: a body's unvalidated fields have the record's types.
- Handler exceptions: a write failure inside a handler's `try` becomes a status-500 answer. The model's saves always succeed and only the backup can fail. The `Failed` answer and its client mapping are modelled.
- Malformed request bodies: a body that is not JSON or is `null`, and a validated field (title, content, excerpt, category, name) that is present, not null and not a string (`false` and `0` included, since optional chaining stops only on null or undefined), make the POST handlers throw and answer 500 with '创建文章失败' or '创建分类失败' (lib/storage.ts:174-205). Request bodies are typed records whose validated fields are `Option<string>`, so these inputs cannot be expressed.
- Dates.DateKey: covers `YYYY-MM-DD` dates only, and the public list requires every listed article to have one. Other dates are not modelled: `new Date` orders an ISO date-time by its time of day as well, and gives any string outside ECMA-262's Date Time String Format (which also admits `YYYY`, `YYYY-MM` and extended years) an implementation-defined time value, NaN among them.
- Text.Lower: maps ASCII `A`-`Z` only, not Unicode case mapping.
- Network and concurrency: `fetch` is replaced by what it delivers (`Fetched`). `Promise.all` and lost-update races between concurrent writes are not modelled.
- The by-id, update and delete endpoints and any category-deletion rule are not part of this model: their server handlers are not in the modelled files. The client wrappers that call them are modelled as pass-throughs.
- Rendering, routing, `confirm`/`alert` dialogs and the loading flags are not modelled, apart from the confirm outcome and alert text of a delete.
- The new-article page's exception branch (`'创建文章失败'`) is not modelled. `apiRequest` catches every error itself, so `createArticle` does not throw.

## Findings

| source | as written | input that shows it | evidently intended | confidence | as-written member | corrected member |
|---|---|---|---|---|---|---|
| app/admin/articles/new/page.tsx:11-64 | the page renders the editor while its categories are still `[]`, and the editor's `useState` initialiser (components/admin/ArticleEditor.tsx:27) runs only on that first render, so the form's category stays "" after the categories load, while the select displays the first category | open the new-article page with the default categories, fill title, content and excerpt, leave the select as displayed, submit: the body has category "" and the answer is "分类不能为空" | the category submitted is the one the select displays, the first category's name | medium; not executed | Consistency.NewPageSubmitsNoCategory | Consistency.NewPageSubmitsShownCategory |

=== FILE: admin_articles_route.dfy ===
/**
 The admin collection endpoint for articles (app/api/admin/articles/route.ts):
 `GET` answers the stored collection, `POST` validates the body, then
 loads, appends the new record and saves. The generated id and the two
 clock readings are parameters; `backupOk` says whether the backup copy
 taken by the save succeeds.
 */
module AdminArticlesRoute {
  import opened Optional
  import opened Records
  import opened Storage
  import opened Api

  /** Every body field other than the server-assigned ones is copied verbatim into `a`. */
  predicate CopiesBody(a: Article, body: ArticleInput) {
    && body.title == Some(a.title) && body.content == Some(a.content)
    && body.excerpt == Some(a.excerpt) && body.category == Some(a.category)
    && a.date == body.date && a.readTime == body.readTime && a.tags == body.tags
    && a.image == body.image && a.author == body.author && a.published == body.published
  }

  /** `GET`: the stored collection, `[]` when there is none; the store is untouched. */
  function Get(store: Store): (r: Response<seq<Article>>)
    ensures store.articlesFile.Parsed? ==> r == Ok(store.articlesFile.items)
    ensures !store.articlesFile.Parsed? ==> r == Ok([])
  {
    Ok(LoadArticles(store))
  }

  /** The record built from a valid body: the body's fields, with the server's id and timestamps taking precedence. */
  function NewArticle(body: ArticleInput, id: string, createdAt: string, updatedAt: string): (a: Article)
    requires body.title.Some? && body.content.Some? && body.excerpt.Some? && body.category.Some?
    ensures CopiesBody(a, body)
    ensures a.id == id && a.createdAt == createdAt && a.updatedAt == updatedAt
  {
    Article(id, body.title.value, body.content.value, body.excerpt.value, body.date,
            body.readTime, body.category.value, body.tags, body.image, body.author,
            body.published, createdAt, updatedAt)
  }

  /**
   `POST`: an invalid body is answered with exactly the validator's messages
   and nothing is written; a valid one is appended at the end of the
   collection, every existing record unchanged and in place, and answered
   with the record that was stored.
   */
  function Post(store: Store, body: ArticleInput, id: string, createdAt: string, updatedAt: string,
                backupOk: bool): (r: Outcome<Article>)
    ensures ValidateArticle(body) != [] ==> r == Outcome(Invalid(ValidateArticle(body)), store)
    ensures ValidateArticle(body) == [] ==>
              && r.response.Ok?
              && LoadArticles(r.store) == LoadArticles(store) + [r.response.data]
              && r.response.data.id == id
              && r.response.data.createdAt == createdAt && r.response.data.updatedAt == updatedAt
              && CopiesBody(r.response.data, body)
              && r.store.categoriesFile == store.categoriesFile
              && LogExtends(store.backups, r.store.backups)
  {
    var errors := ValidateArticle(body);
    if errors != [] then
      Outcome(Invalid(errors), store)
    else
      var articles := LoadArticles(store);
      var article := NewArticle(body, id, createdAt, updatedAt);
      Outcome(Ok(article), SaveArticles(store, articles + [article], backupOk))
  }

  /** Whatever id and timestamps a client puts in the body, they have no effect on the outcome. */
  lemma PostIgnoresClientStamps(store: Store, body: ArticleInput, id: string, createdAt: string,
                                updatedAt: string, backupOk: bool,
                                clientId: Option<string>, clientCreatedAt: Option<string>,
                                clientUpdatedAt: Option<string>)
    ensures var forged := body.(id := clientId, createdAt := clientCreatedAt, updatedAt := clientUpdatedAt);
      Post(store, forged, id, createdAt, updatedAt, backupOk)
      == Post(store, body, id, createdAt, updatedAt, backupOk)
  {
    var forged := body.(id := clientId, createdAt := clientCreatedAt, updatedAt := clientUpdatedAt);
    ValidateArticleIgnoresOtherFields(forged, body);
  }

  /**
   A create against an unparsable articles file replaces it with the new
   record alone; when the backup succeeds, the log keeps the unparsable text.
   */
  lemma PostOverUnparsableFile(store: Store, body: ArticleInput, id: string, createdAt: string,
                               updatedAt: string)
    requires store.articlesFile.Unparsable?
    requires ValidateArticle(body) == []
    ensures var r := Post(store, body, id, createdAt, updatedAt, true);
      && LoadArticles(r.store) == [r.response.data]
      && r.store.backups == store.backups + [ArticlesBackup(store.articlesFile)]
  {
  }
}

=== FILE: admin_categories_route.dfy ===
/**
 The admin collection endpoint for categories
 (app/api/admin/categories/route.ts): `GET` answers the stored collection or
 the built-in defaults, `POST` validates the body and appends a new category
 whose `articleCount` is 0. `clock` supplies the readings taken when the
 defaults are built; the new record's id and timestamps are parameters.
 */
module AdminCategoriesRoute {
  import opened Optional
  import opened Records
  import opened Storage
  import opened Api

  /** The body's name, description and colour are copied verbatim into `c`. */
  predicate CopiesBody(c: Category, body: CategoryInput) {
    body.name == Some(c.name) && c.description == body.description && c.color == body.color
  }

  /** `GET`: the stored collection, or the five defaults when there is none. */
  function Get(store: Store, clock: nat -> string): (r: Response<seq<Category>>)
    ensures store.categoriesFile.Parsed? ==> r == Ok(store.categoriesFile.items)
    ensures !store.categoriesFile.Parsed? ==> r == Ok(DefaultCategories(clock))
  {
    Ok(LoadCategories(store, clock))
  }

  /** The record built from a valid body: its name, description and colour, the server's id and timestamps, no articles yet. */
  function NewCategory(body: CategoryInput, id: string, createdAt: string, updatedAt: string): (c: Category)
    requires body.name.Some?
    ensures CopiesBody(c, body)
    ensures c.id == id && c.articleCount == 0 && c.createdAt == createdAt && c.updatedAt == updatedAt
  {
    Category(id, body.name.value, body.description, body.color, 0, createdAt, updatedAt)
  }

  /**
   `POST`: an invalid body is answered with the validator's message and
   nothing is written; a valid one is appended after the loaded collection
   (the defaults, when there was none) with `articleCount` 0 whatever the
   body says, and answered with the stored record.
   */
  function Post(store: Store, body: CategoryInput, id: string, createdAt: string, updatedAt: string,
                clock: nat -> string, backupOk: bool): (r: Outcome<Category>)
    ensures ValidateCategory(body) != [] ==> r == Outcome(Invalid(ValidateCategory(body)), store)
    ensures ValidateCategory(body) == [] ==>
              && r.response.Ok?
              && r.store.categoriesFile == Parsed(LoadCategories(store, clock) + [r.response.data])
              && r.response.data.id == id && r.response.data.articleCount == 0
              && r.response.data.createdAt == createdAt && r.response.data.updatedAt == updatedAt
              && CopiesBody(r.response.data, body)
              && r.store.articlesFile == store.articlesFile
              && LogExtends(store.backups, r.store.backups)
  {
    var errors := ValidateCategory(body);
    if errors != [] then
      Outcome(Invalid(errors), store)
    else
      var categories := LoadCategories(store, clock);
      var category := NewCategory(body, id, createdAt, updatedAt);
      Outcome(Ok(category), SaveCategories(store, categories + [category], backupOk))
  }

  /**
   Creating a category when no categories file exists persists the five
   defaults followed by the new category, and takes no backup.
   */
  lemma PostOnFreshStore(store: Store, body: CategoryInput, id: string, createdAt: string,
                         updatedAt: string, clock: nat -> string, backupOk: bool)
    requires store.categoriesFile.Missing?
    requires ValidateCategory(body) == []
    ensures var r := Post(store, body, id, createdAt, updatedAt, clock, backupOk);
      && r.store.categoriesFile.Parsed?
      && |r.store.categoriesFile.items| == 6
      && r.store.categoriesFile.items[..5] == DefaultCategories(clock)
      && r.store.categoriesFile.items[5] == r.response.data
      && r.store.backups == store.backups
  {
    var r := Post(store, body, id, createdAt, updatedAt, clock, backupOk);
    assert r.store.categoriesFile.items == DefaultCategories(clock) + [r.response.data];
  }
}

=== FILE: admin_client.dfy ===
/**
 The browser-side service of lib/admin.ts: `apiRequest` turns what `fetch`
 delivers into a `{ success, data, errors }` result, the `AdminService`
 methods unwrap or pass it on, and `getStats` counts articles and categories.
 */
module AdminClient {
  import opened Optional
  import opened Seqs
  import opened Records
  import opened Api

  const RequestFailed := "请求失败"
  const NetworkFailed := "网络请求失败"

  /** The result shape of `apiRequest`. */
  datatype ApiResult<T> = ApiResult(success: bool, data: Option<T>, errors: Option<seq<string>>)

  /** The messages of a failed answer: its error list if it has one, else its single error message if non-empty, else the generic "请求失败". */
  function FailureMessages<T>(body: Envelope<T>): (r: seq<string>)
    ensures body.errors.Some? ==> r == body.errors.value
    ensures body.errors.None? ==> |r| == 1
    ensures body.errors.None? && body.error.Some? && body.error.value != "" ==> r == [body.error.value]
    ensures body.errors.None? && (body.error.None? || body.error.value == "") ==> r == [RequestFailed]
  {
    if body.errors.Some? then body.errors.value
    else if body.error.Some? && body.error.value != "" then [body.error.value]
    else [RequestFailed]
  }

  /**
   `apiRequest`: an `ok` response succeeds with the body's `data`; any other
   response fails with the body's messages; a thrown error fails with the
   network message.
   */
  function ApiRequest<T>(f: Fetched<T>): (r: ApiResult<T>)
    ensures r.success <==> f.Delivered? && f.ok
    ensures r.success ==> r.data == f.body.data && r.errors.None?
    ensures !r.success ==> r.data.None? && r.errors.Some? && |r.errors.value| >= (if f.Delivered? && f.body.errors.Some? then 0 else 1)
    ensures f.NetworkFailure? ==> r.errors == Some([NetworkFailed])
    ensures f.Delivered? && !f.ok ==> r.errors == Some(FailureMessages(f.body))
  {
    match f
    case NetworkFailure => ApiResult(false, None, Some([NetworkFailed]))
    case Delivered(ok, body) =>
      if !ok then ApiResult(false, None, Some(FailureMessages(body)))
      else ApiResult(true, body.data, None)
  }

  /**
   What a route handler answers is what `apiRequest` reports: the data of a
   success, the exact validation messages of a 400, the message of a 500.
   */
  lemma ServerAnswerReachesClient<T>(resp: Response<T>)
    ensures resp.Ok? ==> ApiRequest(Transmit(resp)) == ApiResult(true, Some(resp.data), None)
    ensures resp.Invalid? ==> ApiRequest(Transmit(resp)) == ApiResult(false, None, Some(resp.errors))
    ensures resp.Failed? && resp.error != "" ==> ApiRequest(Transmit(resp)) == ApiResult(false, None, Some([resp.error]))
  {
  }

  /** The delivered list, or the empty list when there is none, as `getAllArticles` and `getAllCategories` return it. */
  function DataOrEmpty<T>(r: ApiResult<seq<T>>): (items: seq<T>)
    ensures r.data.Some? ==> items == r.data.value
    ensures r.data.None? ==> items == []
  {
    r.data.GetOr([])
  }

  /** The delivered record, if any, as `getArticleById` and `getCategoryById` return it. */
  function DataOrNull<T>(r: ApiResult<T>): (item: Option<T>)
    ensures item == r.data
  {
    r.data
  }

  /**
   `getArticleById` / `getCategoryById` end to end: the record a handler
   answers with arrives, and a validation failure, a handler error or a
   network failure all give nothing.
   */
  lemma RecordThroughRequest<T>(resp: Response<T>)
    ensures DataOrNull(ApiRequest(Transmit(resp))) == if resp.Ok? then Some(resp.data) else None
    ensures DataOrNull(ApiRequest<T>(NetworkFailure)) == None
  {
    ServerAnswerReachesClient(resp);
  }

  /** The result of the create and update wrappers. */
  datatype SaveResult<T> = SaveResult(success: bool, record: Option<T>, errors: Option<seq<string>>)

  /** The result of the delete wrappers. */
  datatype DeleteResult = DeleteResult(success: bool, errors: Option<seq<string>>)

  /** The create and update wrappers pass on the success flag, the record and the messages. */
  function ToSaveResult<T>(r: ApiResult<T>): (s: SaveResult<T>)
    ensures s.success == r.success && s.record == r.data && s.errors == r.errors
  {
    SaveResult(r.success, r.data, r.errors)
  }

  /** The delete wrappers pass on the success flag and the messages. */
  function ToDeleteResult<T>(r: ApiResult<T>): (d: DeleteResult)
    ensures d.success == r.success && d.errors == r.errors
  {
    DeleteResult(r.success, r.errors)
  }

  /** The counters of `getStats`. */
  datatype Stats = Stats(totalArticles: nat, totalCategories: nat, publishedArticles: nat, draftArticles: nat)

  /** Counted as published by the dashboard: only an explicit `true`. */
  predicate IsPublishedForStats(a: Article) {
    a.published == Some(true)
  }

  /** Counted as a draft by the dashboard: `false` or unset. */
  predicate IsDraftForStats(a: Article) {
    a.published != Some(true)
  }

  /**
   The counts over the two collections: the totals are their lengths, and
   every article is counted either as published or as a draft.
   */
  function CountStats(articles: seq<Article>, categories: seq<Category>): (s: Stats)
    ensures s.totalArticles == |articles| && s.totalCategories == |categories|
    ensures s.publishedArticles + s.draftArticles == s.totalArticles
    ensures s.publishedArticles == |Filter(articles, IsPublishedForStats)|
    ensures s.draftArticles == |Filter(articles, IsDraftForStats)|
  {
    FilterComplement(articles, IsPublishedForStats, IsDraftForStats);
    Stats(|articles|, |categories|,
          |Filter(articles, IsPublishedForStats)|, |Filter(articles, IsDraftForStats)|)
  }

  /**
   `getAllArticles` / `getAllCategories`: the listed data, or `[]` whenever
   the request failed or its answer carries no data.
   */
  function GetAll<T>(f: Fetched<seq<T>>): (items: seq<T>)
    ensures items == if f.Delivered? && f.ok && f.body.data.Some? then f.body.data.value else []
  {
    DataOrEmpty(ApiRequest(f))
  }

  /**
   `getStats`: the counts over what the two list requests delivered; only
   the delivered articles whose `published` is `true` count as published,
   all others as drafts.
   */
  function GetStats(articles: Fetched<seq<Article>>, categories: Fetched<seq<Category>>): (s: Stats)
    ensures s.totalArticles == |GetAll(articles)| && s.totalCategories == |GetAll(categories)|
    ensures s.publishedArticles == |Filter(GetAll(articles), IsPublishedForStats)|
    ensures s.draftArticles == |Filter(GetAll(articles), IsDraftForStats)|
    ensures s.publishedArticles + s.draftArticles == s.totalArticles
    ensures articles.NetworkFailure? || !articles.ok || articles.body.data.None? ==>
              s.totalArticles == 0 && s.publishedArticles == 0 && s.draftArticles == 0
  {
    CountStats(GetAll(articles), GetAll(categories))
  }

  /** An article whose `published` is unset counts as a draft, not as published. */
  lemma UnsetPublishedCountsAsDraft(articles: seq<Article>, categories: seq<Category>, a: Article)
    requires a.published.None?
    ensures CountStats(articles + [a], categories).draftArticles
         == CountStats(articles, categories).draftArticles + 1
    ensures CountStats(articles + [a], categories).publishedArticles
         == CountStats(articles, categories).publishedArticles
  {
    FilterAppend(articles, [a], IsPublishedForStats);
    FilterAppend(articles, [a], IsDraftForStats);
    assert Filter([a], IsPublishedForStats) == [];
  }
}

=== FILE: api.dfy ===
/**
 The JSON envelope the API routes answer with, and how it reaches the
 browser: `{ success, data }` with status 200, `{ success: false, errors }`
 with status 400 for validation failures, `{ success: false, error }` with
 status 500 when a handler throws.
 */
module Api {
  import opened Optional

  /** What a route handler decides to answer. */
  datatype Response<T> =
    | Ok(data: T)
    | Invalid(errors: seq<string>)
    | Failed(error: string)

  /** The HTTP status the handler attaches to each kind of answer. */
  function Status<T>(r: Response<T>): int {
    match r
    case Ok(_) => 200
    case Invalid(_) => 400
    case Failed(_) => 500
  }

  /** The JSON object on the wire; a property the handler does not set is absent. */
  datatype Envelope<T> = Envelope(
    success: Option<bool>,
    data: Option<T>,
    errors: Option<seq<string>>,
    error: Option<string>)

  /** The JSON body each kind of answer is sent with. */
  function Encode<T>(r: Response<T>): Envelope<T> {
    match r
    case Ok(d) => Envelope(Some(true), Some(d), None, None)
    case Invalid(es) => Envelope(Some(false), None, Some(es), None)
    case Failed(e) => Envelope(Some(false), None, None, Some(e))
  }

  /**
   What `fetch` followed by `response.json()` gives the browser: the `ok`
   flag (status 200–299) and the parsed body, or a thrown error (network
   failure, or a body that is not JSON).
   */
  datatype Fetched<T> = Delivered(ok: bool, body: Envelope<T>) | NetworkFailure

  /** A handler's answer as it arrives at the browser. */
  function Transmit<T>(r: Response<T>): (f: Fetched<T>)
    ensures f.Delivered? && (f.ok <==> r.Ok?)
    ensures r.Ok? ==> f.body.success == Some(true) && f.body.data == Some(r.data)
    ensures !r.Ok? ==> f.body.success == Some(false) && f.body.data.None?
    ensures r.Invalid? ==> f.body.errors == Some(r.errors) && f.body.error.None?
    ensures r.Failed? ==> f.body.errors.None? && f.body.error == Some(r.error)
  {
    Delivered(200 <= Status(r) <= 299, Encode(r))
  }
}

=== FILE: article_editor.dfy ===
/**
 The pure parts of the article editor (components/admin/ArticleEditor.tsx):
 the initial form values, the tag text codec (`join(', ')` to show the tags,
 split on commas and trim to read them back), the body it submits and which
 errors it shows afterwards.
 */
module ArticleEditor {
  import opened Optional
  import opened Seqs
  import opened Text
  import opened Records
  import opened Storage

  const DefaultReadTime := "5分钟"
  const DefaultAuthor := "WealthEase"

  /** The editor state; `tags` is the comma-separated text the user edits. */
  datatype FormData = FormData(
    title: string,
    content: string,
    excerpt: string,
    date: string,
    readTime: string,
    category: string,
    tags: string,
    image: string,
    author: string,
    published: bool)

  /** An optional string with a fallback: the fallback replaces both an absent value and "". */
  function OrElse(value: Option<string>, fallback: string): (r: string)
    ensures value.Some? && value.value != "" ==> r == value.value
    ensures value.None? || value.value == "" ==> r == fallback
  {
    if value.Some? && value.value != "" then value.value else fallback
  }

  // ------------------------------------------------------------ tag codec

  /** How the form shows a tag list: the tags separated by a comma and a space. */
  function JoinTags(tags: seq<string>): string {
    Join(tags, ", ")
  }

  /** Each segment trimmed, in order. */
  function TrimAll(segments: seq<string>): (r: seq<string>)
    ensures |r| == |segments|
    decreases |segments|
  {
    if segments == [] then [] else [Trim(segments[0])] + TrimAll(segments[1..])
  }

  /** The `i`-th trimmed segment is the `i`-th segment trimmed. */
  lemma {:induction false} TrimAllAt(segments: seq<string>)
    ensures forall i :: 0 <= i < |segments| ==> TrimAll(segments)[i] == Trim(segments[i])
    decreases |segments|
  {
    if segments != [] {
      TrimAllAt(segments[1..]);
      forall i | 1 <= i < |segments|
        ensures TrimAll(segments)[i] == Trim(segments[i])
      {
        assert TrimAll(segments)[i] == TrimAll(segments[1..])[i - 1];
        assert segments[i] == segments[1..][i - 1];
      }
    }
  }

  /** A segment survives the tag cleaning when it is not empty. */
  predicate IsNonEmpty(s: string) {
    s != []
  }

  /** The segments trimmed, the empty ones dropped. */
  function CleanSegments(segments: seq<string>): seq<string> {
    Filter(TrimAll(segments), IsNonEmpty)
  }

  /**
   Reading the tag text back: split on commas, trim each piece, drop the
   empty ones. The tags are non-empty, trimmed and comma-free, appear in the
   order of the trimmed segments, and each non-empty trimmed segment occurs
   among them exactly as often as among the segments, repeats included.
   */
  function ParseTags(text: string): (r: seq<string>)
    ensures forall i :: 0 <= i < |r| ==> r[i] != [] && IsTrimmed(r[i]) && ',' !in r[i]
    ensures IsSubsequence(r, TrimAll(Split(text, ',')))
    ensures var trimmed := TrimAll(Split(text, ','));
      forall i :: 0 <= i < |trimmed| && trimmed[i] != [] ==> trimmed[i] in r
    ensures var trimmed := TrimAll(Split(text, ','));
      forall i :: 0 <= i < |trimmed| ==>
        multiset(r)[trimmed[i]] == if trimmed[i] != [] then multiset(trimmed)[trimmed[i]] else 0
  {
    var segments := Split(text, ',');
    FilterCounts(TrimAll(segments), IsNonEmpty);
    CleanTagsArePlain(segments);
    CleanSegments(segments)
  }

  /** Cleaning comma-free segments gives trimmed, comma-free tags. */
  lemma CleanTagsArePlain(segments: seq<string>)
    requires forall i :: 0 <= i < |segments| ==> ',' !in segments[i]
    ensures var r := CleanSegments(segments);
      forall i :: 0 <= i < |r| ==> IsTrimmed(r[i]) && ',' !in r[i]
  {
    var trimmed := TrimAll(segments);
    var r := Filter(trimmed, IsNonEmpty);
    TrimAllAt(segments);
    forall i | 0 <= i < |r|
      ensures IsTrimmed(r[i]) && ',' !in r[i]
    {
      var p :| 0 <= p < |trimmed| && trimmed[p] == r[i];
      TrimIsSlice(segments[p]);
    }
  }

  /** Trimming never introduces a character: every character of the result is one of the input. */
  lemma TrimIsSlice(s: string)
    ensures forall c :: c in Trim(s) ==> c in s
  {
    var t := TrimStart(s);
    TrimStartFacts(s);
    TrimEndFacts(t);
    assert forall c :: c in TrimEnd(t) ==> c in t;
    assert forall c :: c in t ==> c in s;
  }

  /** A tag the round trip can carry: non-empty, trimmed, without a comma. */
  predicate IsPlainTag(t: string) {
    t != [] && IsTrimmed(t) && ',' !in t
  }

  /**
   Round trip: tags that are non-empty, trimmed and comma-free come back
   unchanged from `join(', ')` followed by parsing.
   */
  lemma ParseJoinedTags(tags: seq<string>)
    requires forall i :: 0 <= i < |tags| ==> IsPlainTag(tags[i])
    ensures ParseTags(JoinTags(tags)) == tags
  {
    if tags == [] {
      assert Split("", ',') == [""];
      assert Trim("") == [];
    } else {
      ParsePaddedTags("", tags);
      assert "" + JoinTags(tags) == JoinTags(tags);
    }
  }

  lemma {:induction false} ParsePaddedTags(pad: string, tags: seq<string>)
    requires AllWhitespace(pad) && ',' !in pad
    requires |tags| >= 1
    requires forall i :: 0 <= i < |tags| ==> IsPlainTag(tags[i])
    ensures CleanSegments(Split(pad + Join(tags, ", "), ',')) == tags
    decreases |tags|
  {
    if |tags| == 1 {
      ParsePaddedTag(pad, tags[0]);
      assert [tags[0]] == tags;
    } else {
      ParsePaddedTags(" ", tags[1..]);
      ParsePaddedStep(pad, tags);
    }
  }

  /** A single plain tag after whitespace padding reads back as itself. */
  lemma ParsePaddedTag(pad: string, t: string)
    requires AllWhitespace(pad) && ',' !in pad
    requires IsPlainTag(t)
    ensures CleanSegments(Split(pad + Join([t], ", "), ',')) == [t]
  {
    TrimPadded(pad, t);
    assert Join([t], ", ") == t;
    SplitNoSeparator(pad + t, ',');
    CleanStep(pad + t, t, [], []);
  }

  /** The first tag of two or more, then the rest read back as the rest. */
  lemma ParsePaddedStep(pad: string, tags: seq<string>)
    requires AllWhitespace(pad) && ',' !in pad
    requires |tags| >= 2 && IsPlainTag(tags[0])
    requires CleanSegments(Split(" " + Join(tags[1..], ", "), ',')) == tags[1..]
    ensures CleanSegments(Split(pad + Join(tags, ", "), ',')) == tags
  {
    var t := tags[0];
    TrimPadded(pad, t);
    SplitFirstTag(pad, tags);
    CleanStep(pad + t, t, Split(" " + Join(tags[1..], ", "), ','), tags[1..]);
    assert [t] + tags[1..] == tags;
  }

  /** The text of `pad` followed by two or more joined tags splits into `pad + tags[0]` and the rest. */
  lemma SplitFirstTag(pad: string, tags: seq<string>)
    requires ',' !in pad
    requires |tags| >= 2 && ',' !in tags[0]
    ensures Split(pad + Join(tags, ", "), ',') == [pad + tags[0]] + Split(" " + Join(tags[1..], ", "), ',')
  {
    var t := tags[0];
    var rest := Join(tags[1..], ", ");
    assert ',' !in pad + t;
    assert pad + Join(tags, ", ") == (pad + t) + [','] + (" " + rest) by {
      assert Join(tags, ", ") == t + ", " + rest;
    }
    SplitAfterSegment(pad + t, ',', " " + rest);
  }

  /** Cleaning a list whose first segment trims to the non-empty `t`: `t`, then the rest cleaned. */
  lemma CleanStep(x: string, t: string, later: seq<string>, cleaned: seq<string>)
    requires Trim(x) == t && t != []
    requires CleanSegments(later) == cleaned
    ensures CleanSegments([x] + later) == [t] + cleaned
  {
    var segments := [x] + later;
    assert segments[0] == x && segments[1..] == later;
    var trimmed := TrimAll(segments);
    assert trimmed == [t] + TrimAll(later);
    assert trimmed[0] == t && trimmed[1..] == TrimAll(later);
  }

  /** Text made only of whitespace and commas parses to no tags (so does ""). */
  lemma ParseBlankTags(text: string)
    requires forall i :: 0 <= i < |text| ==> IsWhitespace(text[i]) || text[i] == ','
    ensures ParseTags(text) == []
  {
    BlankSegments(text);
    CleanBlankSegments(Split(text, ','));
  }

  lemma {:induction false} BlankSegments(text: string)
    requires forall i :: 0 <= i < |text| ==> IsWhitespace(text[i]) || text[i] == ','
    ensures forall i :: 0 <= i < |Split(text, ',')| ==> AllWhitespace(Split(text, ',')[i])
    decreases |text|
  {
    if text != [] {
      BlankSegments(text[1..]);
      var rest := Split(text[1..], ',');
      if text[0] != ',' {
        var first := [text[0]] + rest[0];
        assert forall j :: 1 <= j < |first| ==> first[j] == rest[0][j - 1];
      }
    }
  }

  lemma {:induction false} CleanBlankSegments(segments: seq<string>)
    requires forall i :: 0 <= i < |segments| ==> AllWhitespace(segments[i])
    ensures CleanSegments(segments) == []
    decreases |segments|
  {
    if segments != [] {
      CleanBlankSegments(segments[1..]);
      var trimmed := TrimAll(segments);
      assert trimmed[0] == Trim(segments[0]) == [];
      assert trimmed[1..] == TrimAll(segments[1..]);
    }
  }

  // ------------------------------------------------------- initial values

  /** The category preselected for a new article: the first category's name, or "" when there is none. */
  function FirstCategoryName(categories: seq<Category>): (name: string)
    ensures categories != [] ==> name == categories[0].name
    ensures categories == [] ==> name == ""
  {
    if categories != [] then categories[0].name else ""
  }

  /**
   The `useState` initialiser: the article's values where they are truthy,
   otherwise the defaults (today's date, "5分钟", the first category's name,
   "WealthEase"); `published` is true unless the article says exactly `false`.
   */
  function InitialForm(article: Option<Article>, categories: seq<Category>, today: string): (f: FormData)
    ensures f.published <==> (article.None? || article.value.published != Some(false))
    ensures article.None? ==>
              f == FormData("", "", "", today, DefaultReadTime, FirstCategoryName(categories), "", "", DefaultAuthor, true)
    ensures article.Some? ==> f.title == article.value.title && f.tags == JoinTags(article.value.tags)
    ensures article.Some? && article.value.category != "" ==> f.category == article.value.category
    ensures article.Some? && article.value.category == "" ==> f.category == FirstCategoryName(categories)
    ensures article.Some? && article.value.date == "" ==> f.date == today
  {
    match article
    case None =>
      FormData("", "", "", today, DefaultReadTime, FirstCategoryName(categories), "", "", DefaultAuthor, true)
    case Some(a) =>
      FormData(
        a.title, a.content, a.excerpt,
        OrElse(Some(a.date), today),
        OrElse(Some(a.readTime), DefaultReadTime),
        OrElse(Some(a.category), FirstCategoryName(categories)),
        JoinTags(a.tags),
        OrElse(a.image, ""),
        OrElse(a.author, DefaultAuthor),
        a.published != Some(false))
  }

  /**
   The `useEffect` resynchronisation when the `article` prop changes: the
   article's values as they are, with fallbacks only for tags, image and
   author. The effect also runs after the first render, and the edit page
   mounts the editor only once the article has loaded, so this is the form
   the user edits there: the date, read time and category fallbacks of the
   initialiser never survive a render.
   */
  function SyncedForm(a: Article): (f: FormData)
    ensures f.date == a.date && f.readTime == a.readTime && f.category == a.category
    ensures f.image == OrElse(a.image, "") && f.author == OrElse(a.author, DefaultAuthor)
    ensures f.published <==> a.published != Some(false)
  {
    FormData(a.title, a.content, a.excerpt, a.date, a.readTime, a.category,
             JoinTags(a.tags), OrElse(a.image, ""), OrElse(a.author, DefaultAuthor),
             a.published != Some(false))
  }

  /**
   The two ways of filling the form agree exactly when the article's date,
   read time and category need no fallback.
   */
  lemma InitialAgreesWithSynced(a: Article, categories: seq<Category>, today: string)
    ensures InitialForm(Some(a), categories, today) == SyncedForm(a) <==>
              && (a.date != "" || today == "")
              && (a.readTime != "")
              && (a.category != "" || FirstCategoryName(categories) == "")
  {
    var f := InitialForm(Some(a), categories, today);
    var g := SyncedForm(a);
    if f == g {
      assert f.date == g.date && f.readTime == g.readTime && f.category == g.category;
    }
  }

  /** `name` is the value of one of the category select's options, one option per category. */
  predicate IsOption(categories: seq<Category>, name: string) {
    exists i :: 0 <= i < |categories| && categories[i].name == name
  }

  /**
   The form with its category following what the select displays: the
   form's own category when an option has it as its value, otherwise the
   first option, which a controlled `<select>` shows when its value matches
   none. Keeping the form in step with the display this way is what the
   new-article page needs (see `Consistency.NewPageSubmitsShownCategory`).
   */
  function DisplayedForm(f: FormData, categories: seq<Category>): (g: FormData)
    ensures categories != [] ==> IsOption(categories, g.category)
    ensures IsOption(categories, f.category) || categories == [] ==> g == f
    ensures g == f.(category := g.category)
  {
    if IsOption(categories, f.category) || categories == [] then f
    else f.(category := categories[0].name)
  }

  // ------------------------------------------------------------ submission

  /**
   `handleSubmit`'s body: the form's fields as they are, `tags` parsed from
   the text, `published` as the checkbox says; the editor never sends an id
   or timestamps.
   */
  function Submission(f: FormData): (body: ArticleInput)
    ensures body.title == Some(f.title) && body.content == Some(f.content)
    ensures body.excerpt == Some(f.excerpt) && body.category == Some(f.category)
    ensures body.date == f.date && body.readTime == f.readTime
    ensures body.image == Some(f.image) && body.author == Some(f.author)
    ensures body.tags == ParseTags(f.tags) && body.published == Some(f.published)
    ensures body.id.None? && body.createdAt.None? && body.updatedAt.None?
  {
    ArticleInput(None, Some(f.title), Some(f.content), Some(f.excerpt), f.date, f.readTime,
                 Some(f.category), ParseTags(f.tags), Some(f.image), Some(f.author),
                 Some(f.published), None, None)
  }

  /**
   The server rejects a submitted form exactly when one of its four
   required fields is blank, and names each blank field.
   */
  lemma SubmissionValidation(f: FormData)
    ensures ValidateArticle(Submission(f)) == [] <==>
              !IsBlank(f.title) && !IsBlank(f.content) && !IsBlank(f.excerpt) && !IsBlank(f.category)
    ensures TitleRequired in ValidateArticle(Submission(f)) <==> IsBlank(f.title)
    ensures ContentRequired in ValidateArticle(Submission(f)) <==> IsBlank(f.content)
    ensures ExcerptRequired in ValidateArticle(Submission(f)) <==> IsBlank(f.excerpt)
    ensures CategoryRequired in ValidateArticle(Submission(f)) <==> IsBlank(f.category)
  {
    var body := Submission(f);
    assert !body.title.None? && !body.content.None? && !body.excerpt.None? && !body.category.None?;
  }

  /** The body the article as stored would be created from. */
  function AsSubmitted(a: Article): (body: ArticleInput)
    ensures body.title == Some(a.title) && body.category == Some(a.category) && body.tags == a.tags
  {
    ArticleInput(None, Some(a.title), Some(a.content), Some(a.excerpt), a.date, a.readTime,
                 Some(a.category), a.tags, a.image, a.author, a.published, None, None)
  }

  /**
   Opening an article in the editor and submitting it unchanged sends the
   article back as it is, provided it needs no fallback, sets image, author
   and `published` explicitly, and its tags survive the text round trip.
   */
  lemma UnchangedFormResubmits(a: Article, categories: seq<Category>, today: string)
    requires a.date != "" && a.readTime != "" && a.category != ""
    requires a.image.Some? && a.author.Some? && a.author.value != "" && a.published.Some?
    requires forall i :: 0 <= i < |a.tags| ==> IsPlainTag(a.tags[i])
    ensures Submission(InitialForm(Some(a), categories, today)) == AsSubmitted(a)
  {
    var f := InitialForm(Some(a), categories, today);
    ParseJoinedTags(a.tags);
    assert f.tags == JoinTags(a.tags);
    assert f.date == a.date && f.readTime == a.readTime && f.category == a.category;
    assert Some(f.image) == a.image && Some(f.author) == a.author;
    assert Some(f.published) == a.published by {
      if a.published.value { } else { }
    }
  }

  /** What `onSubmit` resolves to. */
  datatype SubmitResult = SubmitResult(success: bool, errors: Option<seq<string>>)

  /**
   The messages the editor shows after a submission: cleared first, then
   set to the result's errors when it failed and carries some.
   */
  function ErrorsAfterSubmit(result: SubmitResult): (shown: seq<string>)
    ensures result.success || result.errors.None? ==> shown == []
    ensures !result.success && result.errors.Some? ==> shown == result.errors.value
  {
    if !result.success && result.errors.Some? then result.errors.value else []
  }
}

=== FILE: articles_page.dfy ===
/**
 The admin article list page (app/admin/articles/page.tsx): the search box
 filters the loaded articles on title, excerpt and category, ignoring case;
 a confirmed, successful delete drops every article with the deleted id from
 the list; each row shows a status label.
 */
module ArticlesPage {
  import opened Optional
  import opened Seqs
  import opened Text
  import opened Records
  import opened AdminClient
  import opened Api

  const DraftLabel := "草稿"
  const PublishedLabel := "已发布"

  /**
   The search matches an article when its title, excerpt or category,
   lower-cased, contains the lower-cased term.
   */
  predicate Matches(a: Article, term: string) {
    || Includes(Lower(a.title), Lower(term))
    || Includes(Lower(a.excerpt), Lower(term))
    || Includes(Lower(a.category), Lower(term))
  }

  /**
   The articles the list shows for a search term: the matching ones, in
   list order, each as often as it occurs in the loaded list.
   */
  function SearchFilter(articles: seq<Article>, term: string): (r: seq<Article>)
    ensures IsSubsequence(r, articles)
    ensures forall i :: 0 <= i < |r| ==> Matches(r[i], term)
    ensures forall i :: 0 <= i < |articles| && Matches(articles[i], term) ==> articles[i] in r
    ensures forall i :: 0 <= i < |articles| ==>
              multiset(r)[articles[i]] == if Matches(articles[i], term) then multiset(articles)[articles[i]] else 0
  {
    FilterCounts(articles, a => Matches(a, term));
    Filter(articles, a => Matches(a, term))
  }

  /** An empty search box shows every article. */
  lemma EmptySearchShowsAll(articles: seq<Article>)
    ensures SearchFilter(articles, "") == articles
  {
    forall i | 0 <= i < |articles|
      ensures Matches(articles[i], "")
    {
      IncludesEmpty(Lower(articles[i].title));
    }
    FilterAll(articles, a => Matches(a, ""));
  }

  /** The search ignores case: a term and its lower-cased form select the same articles. */
  lemma SearchIgnoresCase(articles: seq<Article>, term: string)
    ensures SearchFilter(articles, Lower(term)) == SearchFilter(articles, term)
  {
    LowerIdempotent(term);
    FilterCongruent(articles, a => Matches(a, Lower(term)), a => Matches(a, term));
  }

  /** What the page holds after a delete attempt: the list and the alert it raised, if any. */
  datatype DeleteOutcome = DeleteOutcome(articles: seq<Article>, alert: Option<string>)

  /** The alert after a failed delete: the messages joined by a comma and a space, or "undefined" when there are none. */
  function FailureAlert(errors: Option<seq<string>>): (text: string)
    ensures errors.Some? ==> text == Join(errors.value, ", ")
  {
    if errors.Some? then Join(errors.value, ", ") else "undefined"
  }

  /**
   `handleDeleteArticle`: nothing happens unless the user confirms; after a
   successful request every article with that id leaves the list and the
   rest keep their order; after a failed one the list stays and the errors
   are shown.
   */
  function AfterDelete(articles: seq<Article>, id: string, confirmed: bool, result: DeleteResult): (r: DeleteOutcome)
    ensures !confirmed ==> r == DeleteOutcome(articles, None)
    ensures confirmed && !result.success ==> r == DeleteOutcome(articles, Some(FailureAlert(result.errors)))
    ensures confirmed && result.success ==>
              && r.alert.None?
              && IsSubsequence(r.articles, articles)
              && (forall i :: 0 <= i < |r.articles| ==> r.articles[i].id != id)
              && (forall i :: 0 <= i < |articles| && articles[i].id != id ==> articles[i] in r.articles)
              && (forall i :: 0 <= i < |articles| ==>
                    multiset(r.articles)[articles[i]] == if articles[i].id != id then multiset(articles)[articles[i]] else 0)
  {
    if !confirmed then DeleteOutcome(articles, None)
    else if result.success then
      FilterCounts(articles, (a: Article) => a.id != id);
      DeleteOutcome(Filter(articles, (a: Article) => a.id != id), None)
    else DeleteOutcome(articles, Some(FailureAlert(result.errors)))
  }

  /**
   A confirmed delete through `deleteArticle`: when the handler answers with
   a success every article with the id leaves the list; when it rejects the
   request the list stays and its messages are alerted, joined by ", ".
   */
  lemma DeleteThroughService<T>(articles: seq<Article>, id: string, resp: Response<T>)
    ensures var r := AfterDelete(articles, id, true, ToDeleteResult(ApiRequest(Transmit(resp))));
      && (resp.Ok? ==>
            && r.alert.None?
            && (forall i :: 0 <= i < |r.articles| ==> r.articles[i].id != id)
            && (forall i :: 0 <= i < |articles| && articles[i].id != id ==> articles[i] in r.articles))
      && (resp.Invalid? ==> r == DeleteOutcome(articles, Some(Join(resp.errors, ", "))))
      && (resp.Failed? && resp.error != "" ==> r == DeleteOutcome(articles, Some(resp.error)))
  {
    ServerAnswerReachesClient(resp);
  }

  /** Deleting the same id again after a success leaves the list as it is. */
  lemma DeleteIsIdempotent(articles: seq<Article>, id: string, result: DeleteResult)
    requires result.success
    ensures var once := AfterDelete(articles, id, true, result).articles;
      AfterDelete(once, id, true, result).articles == once
  {
    FilterIdempotent(articles, (a: Article) => a.id != id);
  }

  /** The status column: "草稿" exactly when `published` is `false`, "已发布" otherwise (also when unset). */
  function StatusLabel(a: Article): (shown: string)
    ensures shown == DraftLabel <==> a.published == Some(false)
    ensures shown == PublishedLabel <==> a.published != Some(false)
  {
    if a.published == Some(false) then DraftLabel else PublishedLabel
  }
}

=== FILE: consistency.dfy ===
/**
 Properties that span several parts of the system: how the dashboard's
 counts relate to the public list, how the category the editor stores
 meets the public list's lookup, and what the editor shows after creating
 an article through the admin endpoint.
 */
module Consistency {
  import opened Optional
  import opened Seqs
  import opened Dates
  import opened Text
  import opened Records
  import opened Storage
  import opened Api
  import opened AdminArticlesRoute
  import opened PublicArticles
  import opened AdminClient
  import opened ArticleEditor
  import opened ArticlesPage

  // ------------------------------------------- published: three readings

  /** `published` was never set on the record. */
  predicate IsUnset(a: Article) {
    a.published.None?
  }

  /**
   The public list holds the articles the dashboard counts as published
   plus those whose `published` is unset, which the dashboard counts as
   drafts.
   */
  lemma PublicListCountsUnsetArticles(articles: seq<Article>, categories: seq<Category>)
    requires ListedDatesWellFormed(articles)
    ensures |ListPublished(articles, categories)|
         == CountStats(articles, categories).publishedArticles + |Filter(articles, IsUnset)|
  {
    forall i | 0 <= i < |articles|
      ensures IsListed(articles[i]) <==> IsPublishedForStats(articles[i]) || IsUnset(articles[i])
    {
      if articles[i].published.Some? && !articles[i].published.value {
        assert articles[i].published == Some(false);
      }
    }
    FilterDisjointUnion(articles, IsListed, IsPublishedForStats, IsUnset);
  }

  /**
   An article with `published` unset is on the public site and labelled
   "已发布" in the admin list, yet the dashboard counts it as a draft.
   */
  lemma UnsetArticleIsPublicButCountedAsDraft(a: Article, categories: seq<Category>)
    requires a.published.None? && IsIsoDate(a.date)
    ensures |ListPublished([a], categories)| == 1
    ensures StatusLabel(a) == PublishedLabel
    ensures CountStats([a], categories).draftArticles == 1
    ensures CountStats([a], categories).publishedArticles == 0
  {
    assert Filter([a], IsListed) == [a];
    assert Filter([a], IsPublishedForStats) == [];
  }

  /** The admin list's label and the public list agree on every article. */
  lemma LabelAgreesWithPublicList(a: Article)
    ensures StatusLabel(a) == PublishedLabel <==> IsListed(a)
  {
  }

  // ------------------------------------------------ category: name or id

  /** No default category's id is the name of a default category. */
  lemma DefaultNamesAreNotIds(clock: nat -> string)
    ensures var d := DefaultCategories(clock);
      forall i, j :: 0 <= i < |d| && 0 <= j < |d| ==> d[i].id != d[j].name
  {
    var d := DefaultCategories(clock);
    forall i, j | 0 <= i < |d| && 0 <= j < |d|
      ensures d[i].id != d[j].name
    {
      assert 'a' <= d[i].id[0] <= 'z';
      assert d[j].name[0] > 'z';
    }
  }

  /**
   With the default categories, an article created with any category the
   editor offers (each option's value is a category's name) keeps that name
   in the public list: the lookup by id finds nothing.
   */
  lemma EditorCategoryIsNotResolved(a: Article, clock: nat -> string, k: int)
    requires 0 <= k < |DefaultCategories(clock)|
    requires a.category == DefaultCategories(clock)[k].name
    ensures ResolveCategory(a, DefaultCategories(clock)) == a
  {
    DefaultNamesAreNotIds(clock);
  }

  /** In particular the category the editor preselects for a new article is not resolved. */
  lemma PreselectedCategoryIsNotResolved(a: Article, clock: nat -> string, today: string)
    requires a.category == InitialForm(None, DefaultCategories(clock), today).category
    ensures ResolveCategory(a, DefaultCategories(clock)) == a
  {
    EditorCategoryIsNotResolved(a, clock, 0);
  }

  /**
   The new-article page mounts the editor while its category list is still
   empty, and the initialiser runs only once: the form's category stays ""
   while, after the defaults have loaded, the select displays the first of
   them. Submitting without touching the select sends no category, and the
   server rejects the article for it.
   */
  lemma NewPageSubmitsNoCategory(today: string, clock: nat -> string)
    ensures InitialForm(None, [], today).category == ""
    ensures DisplayedForm(InitialForm(None, [], today), DefaultCategories(clock)).category
         == DefaultCategories(clock)[0].name
    ensures CategoryRequired in ValidateArticle(Submission(InitialForm(None, [], today)))
  {
    var f := InitialForm(None, [], today);
    var d := DefaultCategories(clock);
    assert !IsOption(d, "") by {
      forall i | 0 <= i < |d| ensures d[i].name != "" {
        assert |d[i].name| > 0;
      }
    }
    assert IsBlank(f.category);
    SubmissionValidation(f);
  }

  /**
   With the form kept in step with the select, the untouched new-article
   form submits the category it displays, the first default, and passes the
   category check; that name is then shown as is by the public list.
   */
  lemma NewPageSubmitsShownCategory(today: string, clock: nat -> string, a: Article)
    requires a.category == DisplayedForm(InitialForm(None, [], today), DefaultCategories(clock)).category
    ensures a.category == DefaultCategories(clock)[0].name
    ensures CategoryRequired !in ValidateArticle(Submission(DisplayedForm(InitialForm(None, [], today), DefaultCategories(clock))))
    ensures ResolveCategory(a, DefaultCategories(clock)) == a
  {
    var d := DefaultCategories(clock);
    var f := DisplayedForm(InitialForm(None, [], today), d);
    NewPageSubmitsNoCategory(today, clock);
    assert !IsBlank(f.category) by {
      assert !IsWhitespace(f.category[0]);
    }
    SubmissionValidation(f);
    EditorCategoryIsNotResolved(a, clock, 0);
  }

  /** Had the article stored the category's id, the public list would show its name. */
  lemma CategoryIdIsResolved(a: Article, clock: nat -> string, i: int)
    requires 0 <= i < 5 && a.category == DefaultCategories(clock)[i].id
    ensures ResolveCategory(a, DefaultCategories(clock)).category == DefaultCategories(clock)[i].name
  {
    var d := DefaultCategories(clock);
    assert IsFirstMatch(d, a.category, i);
  }

  // ------------------------------------------- creating from the editor

  /**
   The new-article page's `onSubmit`: success when the service call
   succeeded, otherwise the service's errors.
   */
  function CreatePageResult(save: SaveResult<Article>): (r: SubmitResult)
    ensures r.success == save.success
    ensures !save.success ==> r.errors == save.errors
    ensures save.success ==> r.errors.None?
  {
    if save.success then SubmitResult(true, None) else SubmitResult(false, save.errors)
  }

  /** The whole chain from the editor's submission to the messages it shows. */
  function ShownAfterCreate(store: Store, f: FormData, id: string, createdAt: string,
                            updatedAt: string, backupOk: bool): seq<string>
  {
    var outcome := Post(store, Submission(f), id, createdAt, updatedAt, backupOk);
    ErrorsAfterSubmit(CreatePageResult(ToSaveResult(ApiRequest(Transmit(outcome.response)))))
  }

  /**
   Submitting the editor's form through the admin endpoint shows exactly
   the server's validation messages, one per blank required field, and
   none when the article was created.
   */
  lemma EditorShowsServerValidation(store: Store, f: FormData, id: string, createdAt: string,
                                    updatedAt: string, backupOk: bool)
    ensures ShownAfterCreate(store, f, id, createdAt, updatedAt, backupOk) == ValidateArticle(Submission(f))
    ensures ShownAfterCreate(store, f, id, createdAt, updatedAt, backupOk) == [] <==>
              !IsBlank(f.title) && !IsBlank(f.content) && !IsBlank(f.excerpt) && !IsBlank(f.category)
  {
    var body := Submission(f);
    var outcome := Post(store, body, id, createdAt, updatedAt, backupOk);
    ServerAnswerReachesClient(outcome.response);
    SubmissionValidation(f);
  }
}

=== FILE: dates.dfy ===
/**
 Calendar dates as the blog stores them: `YYYY-MM-DD` strings. The public
 list orders articles by `new Date(date).getTime()`; for such strings that
 value is midnight UTC of the named day, so it orders dates exactly as the
 calendar does. `DateKey` is an integer with that same order.
 */
module Dates {

  predicate IsDigit(c: char) {
    '0' <= c <= '9'
  }

  predicate AllDigits(s: string) {
    forall i :: 0 <= i < |s| ==> IsDigit(s[i])
  }

  /** The value of a string of decimal digits (most significant first). */
  function Decimal(s: string): (n: nat)
    requires AllDigits(s)
    ensures n < Power10(|s|)
    decreases |s|
  {
    if s == [] then 0
    else Decimal(s[..|s| - 1]) * 10 + ((s[|s| - 1] as int) - ('0' as int))
  }

  function Power10(k: nat): (p: nat)
    ensures p >= 1
  {
    if k == 0 then 1 else 10 * Power10(k - 1)
  }

  /** Digits everywhere except for the two dashes of `YYYY-MM-DD`. */
  predicate HasDateShape(s: string) {
    && |s| == 10
    && s[4] == '-' && s[7] == '-'
    && AllDigits(s[0..4]) && AllDigits(s[5..7]) && AllDigits(s[8..10])
  }

  function Year(s: string): (y: nat)
    requires HasDateShape(s)
    ensures y <= 9999
  {
    Decimal(s[0..4])
  }

  function Month(s: string): (m: nat)
    requires HasDateShape(s)
    ensures m <= 99
  {
    Decimal(s[5..7])
  }

  function Day(s: string): (d: nat)
    requires HasDateShape(s)
    ensures d <= 99
  {
    Decimal(s[8..10])
  }

  /** Gregorian leap years. */
  predicate IsLeapYear(y: int) {
    y % 4 == 0 && (y % 100 != 0 || y % 400 == 0)
  }

  function DaysInMonth(y: int, m: int): (n: int)
    requires 1 <= m <= 12
    ensures 28 <= n <= 31
  {
    if m == 2 then (if IsLeapYear(y) then 29 else 28)
    else if m == 4 || m == 6 || m == 9 || m == 11 then 30
    else 31
  }

  /** A well-formed calendar date in `YYYY-MM-DD` form. */
  predicate IsIsoDate(s: string) {
    && HasDateShape(s)
    && 1 <= Month(s) <= 12
    && 1 <= Day(s) <= DaysInMonth(Year(s), Month(s))
  }

  /** `(y1, m1, d1)` is an earlier calendar day than `(y2, m2, d2)`. */
  predicate EarlierDay(y1: int, m1: int, d1: int, y2: int, m2: int, d2: int) {
    y1 < y2 || (y1 == y2 && (m1 < m2 || (m1 == m2 && d1 < d2)))
  }

  /**
   The sort key of a date: ordered like the calendar on well-formed
   `YYYY-MM-DD` dates. Other strings are outside this model: in JavaScript
   an ISO date-time is ordered by its time of day as well, and any string
   outside ECMA-262's date-time string format gets an implementation-defined
   time value, possibly NaN. Such a
   string gets the key 0 here, and the public list requires `YYYY-MM-DD`.
   */
  function DateKey(s: string): int {
    if IsIsoDate(s) then Year(s) * 10000 + Month(s) * 100 + Day(s) else 0
  }

  /** Comparing keys is comparing calendar days, in both directions. */
  lemma DateKeyIsChronological(s: string, t: string)
    requires IsIsoDate(s) && IsIsoDate(t)
    ensures DateKey(s) < DateKey(t)
        <==> EarlierDay(Year(s), Month(s), Day(s), Year(t), Month(t), Day(t))
    ensures DateKey(s) == DateKey(t)
        <==> (Year(s), Month(s), Day(s)) == (Year(t), Month(t), Day(t))
  {
  }
}

=== FILE: optional.dfy ===
/**
 The optional-value wrapper used for the fields that the records of the blog
 may leave unset (`image?`, `author?`, `published?`, …) and for the fields of
 request bodies, which a client may omit.
 */
module Optional {

  /** `None` stands for an absent (`undefined`) property. */
  datatype Option<+T> = None | Some(value: T) {

    /** The value if present, otherwise `default` (the `??` idiom). */
    function GetOr(default: T): T {
      match this
      case Some(v) => v
      case None => default
    }
  }
}

=== FILE: public_articles.dfy ===
/**
 The public article list (app/api/articles/route.ts): drop the articles whose
 `published` is exactly `false`, sort the rest by date, newest first, with a
 stable sort, and replace each `category` by the name of the category whose
 id it holds.
 */
module PublicArticles {
  import opened Optional
  import opened Seqs
  import opened Dates
  import opened StableSort
  import opened Records
  import opened Storage
  import opened Api

  /** Listed publicly unless `published` is exactly `false`: when it is `true` or unset. */
  predicate IsListed(a: Article) {
    a.published != Some(false)
  }

  /** The sort key: the article's date as a time value, up to order. */
  function PublishDate(a: Article): int {
    DateKey(a.date)
  }

  /** Every listed article carries a `YYYY-MM-DD` date, the only date form this model orders. */
  predicate ListedDatesWellFormed(articles: seq<Article>) {
    forall i :: 0 <= i < |articles| && IsListed(articles[i]) ==> IsIsoDate(articles[i].date)
  }

  /** `i` is the first position whose category has the id `id`. */
  predicate IsFirstMatch(categories: seq<Category>, id: string, i: int) {
    && 0 <= i < |categories|
    && categories[i].id == id
    && forall j :: 0 <= j < i ==> categories[j].id != id
  }

  /** The first category whose id is `id`, if any. */
  function FindCategory(categories: seq<Category>, id: string): (r: Option<Category>)
    ensures r.None? <==> forall i :: 0 <= i < |categories| ==> categories[i].id != id
    ensures r.Some? ==> exists i :: IsFirstMatch(categories, id, i) && categories[i] == r.value
    decreases |categories|
  {
    if categories == [] then None
    else if categories[0].id == id then
      assert IsFirstMatch(categories, id, 0);
      Some(categories[0])
    else
      var r := FindCategory(categories[1..], id);
      if r.Some? then
        var i :| IsFirstMatch(categories[1..], id, i) && categories[1..][i] == r.value;
        assert IsFirstMatch(categories, id, i + 1);
        r
      else
        r
  }

  /**
   The article with its category shown by name: the name
   of the first category whose id equals the article's category, unless
   there is none or its name is empty; no other field changes.
   */
  function ResolveCategory(a: Article, categories: seq<Category>): (r: Article)
    ensures r.(category := a.category) == a
    ensures forall i :: IsFirstMatch(categories, a.category, i) ==>
              r.category == (if categories[i].name != "" then categories[i].name else a.category)
    ensures (forall i :: 0 <= i < |categories| ==> categories[i].id != a.category) ==> r == a
  {
    var found := FindCategory(categories, a.category);
    var shown := if found.Some? && found.value.name != "" then found.value.name else a.category;
    FirstMatchUnique(categories, a.category);
    a.(category := shown)
  }

  lemma FirstMatchUnique(categories: seq<Category>, id: string)
    ensures forall i, j :: IsFirstMatch(categories, id, i) && IsFirstMatch(categories, id, j) ==> i == j
  {
  }

  /**
   The listed articles, newest first, ties in collection order (before the
   category join): a permutation of the listed articles.
   */
  function SortedListed(articles: seq<Article>): (r: seq<Article>)
    ensures |r| == |Filter(articles, IsListed)|
    ensures multiset(r) == multiset(Filter(articles, IsListed))
    ensures forall i :: 0 <= i < |articles| && IsListed(articles[i]) ==> articles[i] in r
    ensures forall k :: 0 <= k < |r| ==> IsListed(r[k]) && r[k] in articles
    ensures forall i, j :: 0 <= i < j < |r| ==> DateKey(r[i].date) >= DateKey(r[j].date)
  {
    var listed := Filter(articles, IsListed);
    var r := Sort(listed, PublishDate);
    forall i | 0 <= i < |articles| && IsListed(articles[i])
      ensures articles[i] in r
    {
      assert articles[i] in multiset(listed);
    }
    forall k | 0 <= k < |r|
      ensures IsListed(r[k]) && r[k] in articles
    {
      assert r[k] in multiset(listed);
    }
    forall i, j | 0 <= i < j < |r|
      ensures DateKey(r[i].date) >= DateKey(r[j].date)
    {
      assert PublishDate(r[i]) >= PublishDate(r[j]);
    }
    r
  }

  /** The category join applied to each article of `sorted`, position by position. */
  function JoinCategories(sorted: seq<Article>, categories: seq<Category>): (r: seq<Article>)
    ensures |r| == |sorted|
    ensures forall i :: 0 <= i < |r| ==> r[i] == ResolveCategory(sorted[i], categories)
  {
    seq(|sorted|, i requires 0 <= i < |sorted| => ResolveCategory(sorted[i], categories))
  }

  /** Joining categories distributes over concatenation. */
  lemma JoinAppend(u: seq<Article>, v: seq<Article>, categories: seq<Category>)
    ensures JoinCategories(u + v, categories) == JoinCategories(u, categories) + JoinCategories(v, categories)
  {
  }

  /** Joining categories onto two permutations of a list gives two permutations of one list. */
  lemma {:induction false} JoinPermutation(a: seq<Article>, b: seq<Article>, categories: seq<Category>)
    requires multiset(a) == multiset(b)
    ensures multiset(JoinCategories(a, categories)) == multiset(JoinCategories(b, categories))
    decreases |a|
  {
    if a == [] {
      assert |b| == |multiset(b)|;
    } else {
      var x := a[0];
      assert x in multiset(b);
      var k :| 0 <= k < |b| && b[k] == x;
      var rest := b[..k] + b[k + 1..];
      assert b == b[..k] + [x] + b[k + 1..];
      assert a == [x] + a[1..];
      assert multiset(b) == multiset(b[..k]) + multiset{x} + multiset(b[k + 1..]);
      assert multiset(rest) == multiset(b[..k]) + multiset(b[k + 1..]);
      assert multiset(a) == multiset{x} + multiset(a[1..]);
      assert multiset(a[1..]) == multiset(a) - multiset{x};
      assert multiset(rest) == multiset(b) - multiset{x};
      JoinPermutation(a[1..], rest, categories);
      JoinAppend([x], a[1..], categories);
      JoinAppend(b[..k] + [x], b[k + 1..], categories);
      JoinAppend(b[..k], [x], categories);
      JoinAppend(b[..k], b[k + 1..], categories);
    }
  }

  /**
   The data of the public `GET`: the listed articles with their categories
   resolved, as a permutation, in the order of `SortedListed` (newest first,
   ties in collection order).
   */
  function ListPublished(articles: seq<Article>, categories: seq<Category>): (r: seq<Article>)
    requires ListedDatesWellFormed(articles)
    ensures |r| == |Filter(articles, IsListed)|
    ensures multiset(r) == multiset(JoinCategories(Filter(articles, IsListed), categories))
    ensures forall i :: 0 <= i < |r| ==> r[i] == ResolveCategory(SortedListed(articles)[i], categories)
    ensures forall i :: 0 <= i < |r| ==> IsListed(r[i])
    ensures forall i, j :: 0 <= i < j < |r| ==> DateKey(r[i].date) >= DateKey(r[j].date)
    ensures forall i :: 0 <= i < |articles| && IsListed(articles[i]) ==>
              ResolveCategory(articles[i], categories) in r
    ensures forall i :: 0 <= i < |r| ==>
              exists j :: 0 <= j < |articles| && IsListed(articles[j])
                          && r[i] == ResolveCategory(articles[j], categories)
  {
    var r := JoinCategories(SortedListed(articles), categories);
    ListFacts(articles, categories, r);
    r
  }

  lemma ListFacts(articles: seq<Article>, categories: seq<Category>, r: seq<Article>)
    requires r == JoinCategories(SortedListed(articles), categories)
    ensures |r| == |Filter(articles, IsListed)|
    ensures multiset(r) == multiset(JoinCategories(Filter(articles, IsListed), categories))
    ensures forall i :: 0 <= i < |r| ==> r[i] == ResolveCategory(SortedListed(articles)[i], categories)
    ensures forall i :: 0 <= i < |r| ==> IsListed(r[i])
    ensures forall i, j :: 0 <= i < j < |r| ==> DateKey(r[i].date) >= DateKey(r[j].date)
    ensures forall i :: 0 <= i < |articles| && IsListed(articles[i]) ==>
              ResolveCategory(articles[i], categories) in r
    ensures forall i :: 0 <= i < |r| ==>
              exists j :: 0 <= j < |articles| && IsListed(articles[j])
                          && r[i] == ResolveCategory(articles[j], categories)
  {
    var sorted := SortedListed(articles);
    JoinFacts(articles, sorted, categories, r);
    JoinPermutation(sorted, Filter(articles, IsListed), categories);
  }

  lemma JoinFacts(articles: seq<Article>, sorted: seq<Article>, categories: seq<Category>, r: seq<Article>)
    requires forall i :: 0 <= i < |articles| && IsListed(articles[i]) ==> articles[i] in sorted
    requires forall k :: 0 <= k < |sorted| ==> IsListed(sorted[k]) && sorted[k] in articles
    requires forall i, j :: 0 <= i < j < |sorted| ==> DateKey(sorted[i].date) >= DateKey(sorted[j].date)
    requires |r| == |sorted|
    requires forall i :: 0 <= i < |r| ==> r[i] == ResolveCategory(sorted[i], categories)
    ensures forall i :: 0 <= i < |r| ==> IsListed(r[i])
    ensures forall i, j :: 0 <= i < j < |r| ==> DateKey(r[i].date) >= DateKey(r[j].date)
    ensures forall i :: 0 <= i < |articles| && IsListed(articles[i]) ==>
              ResolveCategory(articles[i], categories) in r
    ensures forall i :: 0 <= i < |r| ==>
              exists j :: 0 <= j < |articles| && IsListed(articles[j])
                          && r[i] == ResolveCategory(articles[j], categories)
  {
    forall i | 0 <= i < |r|
      ensures IsListed(r[i])
    {
      assert r[i].published == sorted[i].published;
    }
    forall i, j | 0 <= i < j < |r|
      ensures DateKey(r[i].date) >= DateKey(r[j].date)
    {
      assert r[i].date == sorted[i].date && r[j].date == sorted[j].date;
    }
    forall i | 0 <= i < |articles| && IsListed(articles[i])
      ensures ResolveCategory(articles[i], categories) in r
    {
      var k :| 0 <= k < |sorted| && sorted[k] == articles[i];
      assert r[k] == ResolveCategory(articles[i], categories);
    }
    forall i | 0 <= i < |r|
      ensures exists j :: 0 <= j < |articles| && IsListed(articles[j])
                          && r[i] == ResolveCategory(articles[j], categories)
    {
      var j :| 0 <= j < |articles| && articles[j] == sorted[i];
      assert IsListed(articles[j]);
    }
  }

  /**
   Stability: two listed articles with the same date appear in the public
   list in the order they have in the stored collection.
   */
  lemma ListPublishedKeepsDateTies(articles: seq<Article>, categories: seq<Category>, p: int, q: int)
    requires ListedDatesWellFormed(articles)
    requires 0 <= p < q < |articles| && IsListed(articles[p]) && IsListed(articles[q])
    requires DateKey(articles[p].date) == DateKey(articles[q].date)
    ensures var r := ListPublished(articles, categories);
      exists i, j :: 0 <= i < j < |r|
                     && r[i] == ResolveCategory(articles[p], categories)
                     && r[j] == ResolveCategory(articles[q], categories)
  {
    var i, j := SortedListedKeepsDateTies(articles, p, q);
    var r := ListPublished(articles, categories);
    assert r[i] == ResolveCategory(articles[p], categories) && r[j] == ResolveCategory(articles[q], categories);
  }

  /** The same stability before the category join. */
  lemma SortedListedKeepsDateTies(articles: seq<Article>, p: int, q: int) returns (i: int, j: int)
    requires 0 <= p < q < |articles| && IsListed(articles[p]) && IsListed(articles[q])
    requires DateKey(articles[p].date) == DateKey(articles[q].date)
    ensures 0 <= i < j < |SortedListed(articles)|
    ensures SortedListed(articles)[i] == articles[p] && SortedListed(articles)[j] == articles[q]
  {
    var listed := Filter(articles, IsListed);
    var sorted := SortedListed(articles);
    assert sorted == Sort(listed, PublishDate);
    FilterOrder(articles, IsListed, p, q);
    var p1, q1 :| 0 <= p1 < q1 < |listed| && listed[p1] == articles[p] && listed[q1] == articles[q];
    var k := PublishDate(articles[p]);
    WithKeyOrder(listed, PublishDate, p1, q1);
    var w := WithKey(listed, PublishDate, k);
    var p2, q2 :| 0 <= p2 < q2 < |w| && w[p2] == articles[p] && w[q2] == articles[q];
    assert w == WithKey(sorted, PublishDate, k);
    SubsequenceOrder(w, sorted, p2, q2);
    i, j :| 0 <= i < j < |sorted| && sorted[i] == articles[p] && sorted[j] == articles[q];
  }

  /**
   The public `GET`: always a success, whose data is the projected list, so
   the permutation, order and stability facts of `ListPublished` carry over.
   */
  function Get(store: Store, clock: nat -> string): (r: Response<seq<Article>>)
    requires ListedDatesWellFormed(LoadArticles(store))
    ensures r.Ok?
    ensures LoadArticles(store) == [] ==> r == Ok([])
    ensures |r.data| == |Filter(LoadArticles(store), IsListed)|
    ensures r.data == ListPublished(LoadArticles(store), LoadCategories(store, clock))
  {
    Ok(ListPublished(LoadArticles(store), LoadCategories(store, clock)))
  }
}

=== FILE: records.dfy ===
/**
 The two record kinds of the blog (lib/storage.ts:39-64) and the request
 bodies from which the admin endpoints create them.
 */
module Records {
  import opened Optional

  /**
   A stored article. `category` is an opaque string: the editor fills it
   with a category's name, the public list looks it up as a category id.
   `published` unset is distinct from `Some(false)`.
   */
  datatype Article = Article(
    id: string,
    title: string,
    content: string,
    excerpt: string,
    date: string,
    readTime: string,
    category: string,
    tags: seq<string>,
    image: Option<string>,
    author: Option<string>,
    published: Option<bool>,
    createdAt: string,
    updatedAt: string)

  /** A stored category; `articleCount` is written as given and never recomputed. */
  datatype Category = Category(
    id: string,
    name: string,
    description: Option<string>,
    color: Option<string>,
    articleCount: int,
    createdAt: string,
    updatedAt: string)

  /**
   The JSON body of a create-article request. The four validated fields and
   the three server-assigned ones may be missing; the rest are as the editor
   always sends them.
   */
  datatype ArticleInput = ArticleInput(
    id: Option<string>,
    title: Option<string>,
    content: Option<string>,
    excerpt: Option<string>,
    date: string,
    readTime: string,
    category: Option<string>,
    tags: seq<string>,
    image: Option<string>,
    author: Option<string>,
    published: Option<bool>,
    createdAt: Option<string>,
    updatedAt: Option<string>)

  /** The JSON body of a create-category request; every field may be missing. */
  datatype CategoryInput = CategoryInput(
    id: Option<string>,
    name: Option<string>,
    description: Option<string>,
    color: Option<string>,
    articleCount: Option<int>,
    createdAt: Option<string>,
    updatedAt: Option<string>)
}

=== FILE: seqs.dfy ===
/**
 List-level vocabulary shared by the model: order-preserving filtering (the
 `Array.prototype.filter` of the source) and the subsequence relation used to
 state that a filtered list keeps its elements in their original order.
 */
module Seqs {

  /** `a` can be obtained from `b` by deleting elements, without reordering. */
  predicate IsSubsequence<T(==)>(a: seq<T>, b: seq<T>)
    decreases |b|
  {
    if a == [] then true
    else if b == [] then false
    else (a[0] == b[0] && IsSubsequence(a[1..], b[1..])) || IsSubsequence(a, b[1..])
  }

  /** The elements of `s` satisfying `p`, in their original order. */
  function Filter<T(==)>(s: seq<T>, p: T -> bool): (r: seq<T>)
    ensures |r| <= |s|
    ensures IsSubsequence(r, s)
    ensures forall i :: 0 <= i < |r| ==> r[i] in s && p(r[i])
    ensures forall i :: 0 <= i < |s| && p(s[i]) ==> s[i] in r
    decreases |s|
  {
    if s == [] then []
    else if p(s[0]) then [s[0]] + Filter(s[1..], p)
    else Filter(s[1..], p)
  }

  /**
   Filtering keeps multiplicities: each value of `s` satisfying `p` occurs in
   the result exactly as often as in `s`, every other value not at all. With
   `IsSubsequence` this determines the result.
   */
  lemma {:induction false} FilterCounts<T>(s: seq<T>, p: T -> bool)
    ensures forall i :: 0 <= i < |s| ==>
              multiset(Filter(s, p))[s[i]] == if p(s[i]) then multiset(s)[s[i]] else 0
    decreases |s|
  {
    if s != [] {
      FilterCounts(s[1..], p);
      FilterCountStep(s, p, Filter(s[1..], p), Filter(s, p));
    }
  }

  /**
   One step of `FilterCounts`: if `rest` keeps the counts of
   the tail, then `rest` with the head put back when it satisfies `p` keeps
   the counts of the whole list.
   */
  lemma FilterCountStep<T>(s: seq<T>, p: T -> bool, rest: seq<T>, r: seq<T>)
    requires s != []
    requires forall k :: 0 <= k < |rest| ==> rest[k] in s[1..]
    requires forall i :: 0 <= i < |s| - 1 ==>
               multiset(rest)[s[1..][i]] == if p(s[1..][i]) then multiset(s[1..])[s[1..][i]] else 0
    requires r == if p(s[0]) then [s[0]] + rest else rest
    ensures forall i :: 0 <= i < |s| ==> multiset(r)[s[i]] == if p(s[i]) then multiset(s)[s[i]] else 0
  {
    assert s == [s[0]] + s[1..];
    forall i | 0 <= i < |s|
      ensures multiset(r)[s[i]] == if p(s[i]) then multiset(s)[s[i]] else 0
    {
      var x := s[i];
      if x in s[1..] {
        var k :| 0 <= k < |s| - 1 && s[1..][k] == x;
      } else {
        assert x !in rest;
      }
    }
  }

  /** Two kept elements, in order in `s`, are in the same order in the filtered list. */
  lemma {:induction false} FilterOrder<T>(s: seq<T>, p: T -> bool, a: int, b: int)
    requires 0 <= a < b < |s| && p(s[a]) && p(s[b])
    ensures exists i, j :: 0 <= i < j < |Filter(s, p)| && Filter(s, p)[i] == s[a] && Filter(s, p)[j] == s[b]
    decreases |s|
  {
    var f := Filter(s, p);
    var rest := Filter(s[1..], p);
    assert s[b] == s[1..][b - 1];
    if a == 0 {
      assert f == [s[0]] + rest;
      var j :| 0 <= j < |rest| && rest[j] == s[b];
      assert f[0] == s[a] && f[j + 1] == s[b];
    } else {
      assert s[a] == s[1..][a - 1];
      FilterOrder(s[1..], p, a - 1, b - 1);
      var i, j :| 0 <= i < j < |rest| && rest[i] == s[a] && rest[j] == s[b];
      if p(s[0]) {
        assert f == [s[0]] + rest;
        assert f[i + 1] == s[a] && f[j + 1] == s[b];
      } else {
        assert f == rest;
      }
    }
  }

  /** Filtering distributes over concatenation. */
  lemma {:induction false} FilterAppend<T>(a: seq<T>, b: seq<T>, p: T -> bool)
    ensures Filter(a + b, p) == Filter(a, p) + Filter(b, p)
    decreases |a|
  {
    if a == [] {
      assert a + b == b;
    } else {
      var ab := a + b;
      assert ab[0] == a[0] && ab[1..] == a[1..] + b;
      FilterAppend(a[1..], b, p);
    }
  }

  /** When every element satisfies `p`, filtering keeps the whole list. */
  lemma {:induction false} FilterAll<T>(s: seq<T>, p: T -> bool)
    requires forall i :: 0 <= i < |s| ==> p(s[i])
    ensures Filter(s, p) == s
    decreases |s|
  {
    if s != [] {
      FilterAll(s[1..], p);
    }
  }

  /**
   Two complementary filters split a list: the number of elements kept by `p`
   plus the number kept by `q` is the length of the list.
   */
  lemma {:induction false} FilterComplement<T>(s: seq<T>, p: T -> bool, q: T -> bool)
    requires forall i :: 0 <= i < |s| ==> q(s[i]) == !p(s[i])
    ensures |Filter(s, p)| + |Filter(s, q)| == |s|
    decreases |s|
  {
    if s != [] {
      FilterComplement(s[1..], p, q);
    }
  }

  /** A list is a subsequence of any list that starts with one more element. */
  lemma SubsequenceSkip<T>(a: seq<T>, x: T, b: seq<T>)
    requires IsSubsequence(a, b)
    ensures IsSubsequence(a, [x] + b)
  {
    assert ([x] + b)[1..] == b;
  }

  /** Prefixing both lists with the same element preserves the relation. */
  lemma SubsequenceKeep<T>(a: seq<T>, x: T, b: seq<T>)
    requires IsSubsequence(a, b)
    ensures IsSubsequence([x] + a, [x] + b)
  {
    assert ([x] + a)[1..] == a;
    assert ([x] + b)[1..] == b;
  }

  /**
   Two positions of a subsequence, in order, come from two positions of the
   longer list in the same order.
   */
  lemma {:induction false} SubsequenceOrder<T>(a: seq<T>, b: seq<T>, i: int, j: int)
    requires IsSubsequence(a, b)
    requires 0 <= i < j < |a|
    ensures exists p, q :: 0 <= p < q < |b| && b[p] == a[i] && b[q] == a[j]
    decreases |b|
  {
    if a[0] == b[0] && IsSubsequence(a[1..], b[1..]) {
      if i == 0 {
        SubsequenceContains(a[1..], b[1..], j - 1);
        var q :| 0 <= q < |b[1..]| && b[1..][q] == a[1..][j - 1];
        assert b[0] == a[i] && b[q + 1] == a[j];
      } else {
        SubsequenceOrder(a[1..], b[1..], i - 1, j - 1);
        var p, q :| 0 <= p < q < |b[1..]| && b[1..][p] == a[1..][i - 1] && b[1..][q] == a[1..][j - 1];
        assert b[p + 1] == a[i] && b[q + 1] == a[j];
      }
    } else {
      SubsequenceOrder(a, b[1..], i, j);
      var p, q :| 0 <= p < q < |b[1..]| && b[1..][p] == a[i] && b[1..][q] == a[j];
      assert b[p + 1] == a[i] && b[q + 1] == a[j];
    }
  }

  /** Every element of a subsequence occurs in the longer list. */
  lemma {:induction false} SubsequenceContains<T>(a: seq<T>, b: seq<T>, i: int)
    requires IsSubsequence(a, b)
    requires 0 <= i < |a|
    ensures exists p :: 0 <= p < |b| && b[p] == a[i]
    decreases |b|
  {
    if a[0] == b[0] && IsSubsequence(a[1..], b[1..]) {
      if i > 0 {
        SubsequenceContains(a[1..], b[1..], i - 1);
        var p :| 0 <= p < |b[1..]| && b[1..][p] == a[1..][i - 1];
        assert b[p + 1] == a[i];
      } else {
        assert b[0] == a[i];
      }
    } else {
      SubsequenceContains(a, b[1..], i);
      var p :| 0 <= p < |b[1..]| && b[1..][p] == a[i];
      assert b[p + 1] == a[i];
    }
  }

  /**
   When `p` holds exactly where one of two exclusive predicates `q` and `u`
   holds, the elements kept by `p` are counted by `q` plus `u`.
   */
  lemma {:induction false} FilterDisjointUnion<T>(s: seq<T>, p: T -> bool, q: T -> bool, u: T -> bool)
    requires forall i :: 0 <= i < |s| ==> (p(s[i]) <==> q(s[i]) || u(s[i]))
    requires forall i :: 0 <= i < |s| ==> !(q(s[i]) && u(s[i]))
    ensures |Filter(s, p)| == |Filter(s, q)| + |Filter(s, u)|
    decreases |s|
  {
    if s != [] {
      FilterDisjointUnion(s[1..], p, q, u);
    }
  }

  /** Filtering with two predicates that agree on every element gives the same list. */
  lemma {:induction false} FilterCongruent<T>(s: seq<T>, p: T -> bool, q: T -> bool)
    requires forall i :: 0 <= i < |s| ==> p(s[i]) == q(s[i])
    ensures Filter(s, p) == Filter(s, q)
    decreases |s|
  {
    if s != [] {
      FilterCongruent(s[1..], p, q);
    }
  }

  /** Filtering twice with the same predicate is filtering once. */
  lemma FilterIdempotent<T>(s: seq<T>, p: T -> bool)
    ensures Filter(Filter(s, p), p) == Filter(s, p)
  {
    var r := Filter(s, p);
    FilterAll(r, p);
  }
}

=== FILE: stable_sort.dfy ===
/**
 A stable sort into descending key order: what `Array.prototype.sort` does
 with the comparator `(a, b) => key(b) - key(a)`. ECMA-262 (2019 and later,
 section 23.1.3.30 of the 2023 edition) requires that sort to be stable, so
 elements with equal keys keep their original relative order.
 */
module StableSort {
  import opened Seqs

  /** Keys never increase from left to right. */
  predicate SortedDescending<T>(s: seq<T>, key: T -> int) {
    forall i, j :: 0 <= i < j < |s| ==> key(s[i]) >= key(s[j])
  }

  /** The elements of `s` whose key is `k`, in their order in `s`. */
  function WithKey<T>(s: seq<T>, key: T -> int, k: int): (r: seq<T>)
    ensures |r| <= |s|
    ensures IsSubsequence(r, s)
    decreases |s|
  {
    if s == [] then []
    else if key(s[0]) == k then [s[0]] + WithKey(s[1..], key, k)
    else WithKey(s[1..], key, k)
  }

  /**
   Every key class is the same sequence in `a` as in `b`: `a` is a
   rearrangement of `b` that moves no element past another of equal key.
   */
  ghost predicate SameKeyClasses<T>(a: seq<T>, b: seq<T>, key: T -> int) {
    forall k :: WithKey(a, key, k) == WithKey(b, key, k)
  }

  /**
   Places `x` in front of the first element whose key is not larger, so
   `x` precedes the elements of equal key that follow it in the input.
   */
  function Insert<T>(x: T, s: seq<T>, key: T -> int): (r: seq<T>)
    ensures |r| == |s| + 1
    ensures multiset(r) == multiset(s) + multiset{x}
    decreases |s|
  {
    if s == [] || key(x) >= key(s[0]) then
      [x] + s
    else
      assert s == [s[0]] + s[1..];
      [s[0]] + Insert(x, s[1..], key)
  }

  /** `b` bounds every key of `s` from above. */
  predicate KeysAtMost<T>(s: seq<T>, key: T -> int, b: int) {
    forall j :: 0 <= j < |s| ==> key(s[j]) <= b
  }

  /** A bound on `x` and on every key of `s` bounds every key after inserting. */
  lemma {:induction false} InsertKeysAtMost<T>(x: T, s: seq<T>, key: T -> int, b: int)
    requires key(x) <= b && KeysAtMost(s, key, b)
    ensures KeysAtMost(Insert(x, s, key), key, b)
    decreases |s|
  {
    if s != [] && key(x) < key(s[0]) {
      InsertKeysAtMost(x, s[1..], key, b);
    }
  }

  /** Inserting into a sorted list keeps it sorted. */
  lemma {:induction false} InsertSorted<T>(x: T, s: seq<T>, key: T -> int)
    requires SortedDescending(s, key)
    ensures SortedDescending(Insert(x, s, key), key)
    decreases |s|
  {
    if s != [] && key(x) < key(s[0]) {
      var tail := Insert(x, s[1..], key);
      InsertSorted(x, s[1..], key);
      InsertKeysAtMost(x, s[1..], key, key(s[0]));
      SortedCons(s[0], tail, key);
    }
  }

  /** A sorted list stays sorted behind a head whose key bounds all of its keys. */
  lemma SortedCons<T>(h: T, tail: seq<T>, key: T -> int)
    requires SortedDescending(tail, key) && KeysAtMost(tail, key, key(h))
    ensures SortedDescending([h] + tail, key)
  {
    var r := [h] + tail;
    forall i, j | 0 <= i < j < |r|
      ensures key(r[i]) >= key(r[j])
    {
      assert r[j] == tail[j - 1];
      if i > 0 {
        assert r[i] == tail[i - 1];
      }
    }
  }

  /** `x` joins its own key class at the front; every other class is unchanged. */
  lemma {:induction false} InsertWithKey<T>(x: T, s: seq<T>, key: T -> int, k: int)
    ensures WithKey(Insert(x, s, key), key, k)
         == if key(x) == k then [x] + WithKey(s, key, k) else WithKey(s, key, k)
    decreases |s|
  {
    if s == [] || key(x) >= key(s[0]) {
      assert ([x] + s)[1..] == s;
    } else {
      InsertWithKey(x, s[1..], key, k);
      var r := [s[0]] + Insert(x, s[1..], key);
      assert r[1..] == Insert(x, s[1..], key);
    }
  }

  /**
   The stable descending sort: the result is ordered by key, is a
   permutation of the input, and keeps each key class in input order.
   */
  function Sort<T>(s: seq<T>, key: T -> int): (r: seq<T>)
    ensures |r| == |s|
    ensures SortedDescending(r, key)
    ensures multiset(r) == multiset(s)
    ensures SameKeyClasses(r, s, key)
    decreases |s|
  {
    if s == [] then []
    else
      var tail := Sort(s[1..], key);
      assert s == [s[0]] + s[1..];
      InsertSorted(s[0], tail, key);
      SortKeyClasses(s, tail, key);
      Insert(s[0], tail, key)
  }

  lemma SortKeyClasses<T>(s: seq<T>, tail: seq<T>, key: T -> int)
    requires s != [] && SameKeyClasses(tail, s[1..], key)
    ensures SameKeyClasses(Insert(s[0], tail, key), s, key)
  {
    forall k
      ensures WithKey(Insert(s[0], tail, key), key, k) == WithKey(s, key, k)
    {
      InsertWithKey(s[0], tail, key, k);
      assert WithKey(tail, key, k) == WithKey(s[1..], key, k);
    }
  }

  /** An element belongs to its own key class, so the class of a kept element is non-empty. */
  lemma {:induction false} InWithKey<T>(s: seq<T>, key: T -> int, x: T)
    requires x in s
    ensures x in WithKey(s, key, key(x))
    decreases |s|
  {
    if s[0] != x {
      InWithKey(s[1..], key, x);
    }
  }

  /**
   Stability, pairwise: two elements of equal key that appear in one order
   in the output appear in that order in the input.
   */
  lemma {:induction false} WithKeyOrder<T>(s: seq<T>, key: T -> int, i: int, j: int)
    requires 0 <= i < j < |s| && key(s[i]) == key(s[j])
    ensures exists p, q :: 0 <= p < q < |WithKey(s, key, key(s[i]))|
                        && WithKey(s, key, key(s[i]))[p] == s[i]
                        && WithKey(s, key, key(s[i]))[q] == s[j]
    decreases |s|
  {
    var k := key(s[i]);
    if i == 0 {
      InWithKey(s[1..], key, s[j]);
      assert s[j] == s[1..][j - 1];
      var w := WithKey(s[1..], key, k);
      var q :| 0 <= q < |w| && w[q] == s[j];
      var ws := WithKey(s, key, k);
      assert ws == [s[0]] + w;
      assert 0 < q + 1 < |ws| && ws[0] == s[i] && ws[q + 1] == s[j];
    } else {
      assert s[i] == s[1..][i - 1] && s[j] == s[1..][j - 1];
      WithKeyOrder(s[1..], key, i - 1, j - 1);
      var w := WithKey(s[1..], key, k);
      var p, q :| 0 <= p < q < |w| && w[p] == s[i] && w[q] == s[j];
      if key(s[0]) == k {
        assert WithKey(s, key, k) == [s[0]] + w;
        assert WithKey(s, key, k)[p + 1] == s[i] && WithKey(s, key, k)[q + 1] == s[j];
      } else {
        assert WithKey(s, key, k) == w;
      }
    }
  }
}

=== FILE: storage.dfy ===
/**
 The file-backed store of lib/storage.ts, with the file system replaced by
 an abstract state: the content of the articles file, the content of the
 categories file, and the log of backups taken so far. Reading and
 re-writing JSON is the identity on parsed content.
 */
module Storage {
  import opened Optional
  import opened Seqs
  import opened Text
  import opened Records
  import Api

  /** What a data file holds: nothing, text that is not valid JSON, or a collection. */
  datatype Content<T> = Missing | Unparsable(text: string) | Parsed(items: seq<T>)

  /** One backup copy, in the order taken (the source names them by timestamp). */
  datatype Backup =
    | ArticlesBackup(articles: Content<Article>)
    | CategoriesBackup(categories: Content<Category>)

  datatype Store = Store(
    articlesFile: Content<Article>,
    categoriesFile: Content<Category>,
    backups: seq<Backup>)

  /** A route handler's answer together with the store it leaves behind. */
  datatype Outcome<T> = Outcome(response: Api.Response<T>, store: Store)

  /** `after` is `before` with at most one backup appended. */
  predicate LogExtends(before: seq<Backup>, after: seq<Backup>) {
    |before| <= |after| <= |before| + 1 && after[..|before|] == before
  }

  // ---------------------------------------------------------------- loading

  /** `getArticles`: the stored collection, or `[]` when the file is missing or unparsable. */
  function LoadArticles(store: Store): (r: seq<Article>)
  {
    match store.articlesFile
    case Parsed(items) => items
    case _ => []
  }

  /**
   The five built-in categories. Each of the ten timestamps is a separate
   reading of the clock, taken in order: `clock(2 * i)` and `clock(2 * i + 1)`
   for the `i`-th category.
   */
  function DefaultCategories(clock: nat -> string): (r: seq<Category>)
    ensures |r| == 5
    ensures r[0].id == "finance-basics" && r[1].id == "investment-strategy"
         && r[2].id == "income-management" && r[3].id == "wealth-growth"
         && r[4].id == "risk-management"
    ensures forall i :: 0 <= i < 5 ==>
              && r[i].articleCount == 0
              && r[i].createdAt == clock(2 * i) && r[i].updatedAt == clock(2 * i + 1)
    ensures forall i, j :: 0 <= i < j < 5 ==> r[i].id != r[j].id && r[i].name != r[j].name
  {
    [ Category("finance-basics", "理财基础", Some("理财入门知识和基础概念"), Some("#3b82f6"), 0, clock(0), clock(1)),
      Category("investment-strategy", "投资策略", Some("投资方法和市场分析"), Some("#10b981"), 0, clock(2), clock(3)),
      Category("income-management", "收入管理", Some("收入来源和支出控制"), Some("#f59e0b"), 0, clock(4), clock(5)),
      Category("wealth-growth", "财富增长", Some("资产增值和长期规划"), Some("#8b5cf6"), 0, clock(6), clock(7)),
      Category("risk-management", "风险管理", Some("风险控制和保险规划"), Some("#ef4444"), 0, clock(8), clock(9)) ]
  }

  /** `getCategories`: the stored collection, or the defaults when the file is missing or unparsable. */
  function LoadCategories(store: Store, clock: nat -> string): (r: seq<Category>)
  {
    match store.categoriesFile
    case Parsed(items) => items
    case _ => DefaultCategories(clock)
  }

  /** A missing or unparsable articles file loads as the empty collection. */
  lemma LoadArticlesFallback(store: Store)
    requires !store.articlesFile.Parsed?
    ensures LoadArticles(store) == []
  {
  }

  /**
   A missing or unparsable categories file loads as exactly the five
   defaults: pairwise distinct ids and names, every `articleCount` zero.
   */
  lemma LoadCategoriesFallback(store: Store, clock: nat -> string)
    requires !store.categoriesFile.Parsed?
    ensures var r := LoadCategories(store, clock);
      && |r| == 5
      && (forall i :: 0 <= i < 5 ==> r[i].articleCount == 0)
      && (forall i, j :: 0 <= i < j < 5 ==> r[i].id != r[j].id && r[i].name != r[j].name)
      && [r[0].id, r[1].id, r[2].id, r[3].id, r[4].id]
         == ["finance-basics", "investment-strategy", "income-management", "wealth-growth", "risk-management"]
  {
  }

  // ----------------------------------------------------------------- saving

  /**
   `backupFile` followed by the write of `saveArticles`: the old content is
   copied to the log when the file exists and the copy succeeds (`backupOk`);
   either way the new collection is installed.
   */
  function SaveArticles(store: Store, items: seq<Article>, backupOk: bool): (r: Store)
    ensures r.articlesFile == Parsed(items)
    ensures r.categoriesFile == store.categoriesFile
    ensures LogExtends(store.backups, r.backups)
    ensures |r.backups| > |store.backups| <==> store.articlesFile != Missing && backupOk
    ensures |r.backups| > |store.backups| ==> r.backups[|store.backups|] == ArticlesBackup(store.articlesFile)
  {
    var log := if store.articlesFile != Missing && backupOk
               then store.backups + [ArticlesBackup(store.articlesFile)]
               else store.backups;
    Store(Parsed(items), store.categoriesFile, log)
  }

  /** `saveCategories`, with the same best-effort backup. */
  function SaveCategories(store: Store, items: seq<Category>, backupOk: bool): (r: Store)
    ensures r.categoriesFile == Parsed(items)
    ensures r.articlesFile == store.articlesFile
    ensures LogExtends(store.backups, r.backups)
    ensures |r.backups| > |store.backups| <==> store.categoriesFile != Missing && backupOk
    ensures |r.backups| > |store.backups| ==> r.backups[|store.backups|] == CategoriesBackup(store.categoriesFile)
  {
    var log := if store.categoriesFile != Missing && backupOk
               then store.backups + [CategoriesBackup(store.categoriesFile)]
               else store.backups;
    Store(store.articlesFile, Parsed(items), log)
  }

  /** Saving articles then loading them returns what was saved; the categories read as before. */
  lemma SaveArticlesRoundTrip(store: Store, items: seq<Article>, backupOk: bool, clock: nat -> string)
    ensures LoadArticles(SaveArticles(store, items, backupOk)) == items
    ensures LoadCategories(SaveArticles(store, items, backupOk), clock) == LoadCategories(store, clock)
  {
  }

  /** Saving categories then loading them returns what was saved; the articles read as before. */
  lemma SaveCategoriesRoundTrip(store: Store, items: seq<Category>, backupOk: bool, clock: nat -> string)
    ensures LoadCategories(SaveCategories(store, items, backupOk), clock) == items
    ensures LoadArticles(SaveCategories(store, items, backupOk)) == LoadArticles(store)
  {
  }

  // ------------------------------------------------------------- validation

  const TitleRequired := "标题不能为空"
  const ContentRequired := "内容不能为空"
  const ExcerptRequired := "摘要不能为空"
  const CategoryRequired := "分类不能为空"
  const CategoryNameRequired := "分类名称不能为空"

  /** The article messages in the order the validator checks their fields. */
  const ArticleMessages: seq<string> := [TitleRequired, ContentRequired, ExcerptRequired, CategoryRequired]

  /** A required field is missing when it is absent or trims to the empty string. */
  predicate IsMissing(field: Option<string>) {
    field.None? || IsBlank(field.value)
  }

  /** The messages whose flag is set, in their given order. */
  function Select(flags: seq<bool>, messages: seq<string>): (r: seq<string>)
    requires |flags| == |messages|
    ensures |r| <= |messages|
    ensures forall i :: 0 <= i < |r| ==> r[i] in messages
    decreases |flags|
  {
    if flags == [] then []
    else (if flags[0] then [messages[0]] else []) + Select(flags[1..], messages[1..])
  }

  /**
   A selection is an ordered sub-list of the messages that, when the
   messages are distinct, contains exactly the flagged ones.
   */
  lemma {:induction false} SelectSpec(flags: seq<bool>, messages: seq<string>)
    requires |flags| == |messages|
    requires forall i, j :: 0 <= i < j < |messages| ==> messages[i] != messages[j]
    ensures IsSubsequence(Select(flags, messages), messages)
    ensures forall k :: 0 <= k < |messages| ==> (messages[k] in Select(flags, messages) <==> flags[k])
    ensures Select(flags, messages) == [] <==> forall k :: 0 <= k < |flags| ==> !flags[k]
    decreases |flags|
  {
    if flags != [] {
      var rest := Select(flags[1..], messages[1..]);
      SelectSpec(flags[1..], messages[1..]);
      assert [messages[0]] + messages[1..] == messages;
      if flags[0] {
        SubsequenceKeep(rest, messages[0], messages[1..]);
        assert Select(flags, messages) == [messages[0]] + rest;
      } else {
        SubsequenceSkip(rest, messages[0], messages[1..]);
        assert Select(flags, messages) == rest;
      }
      forall k | 0 <= k < |messages|
        ensures messages[k] in Select(flags, messages) <==> flags[k]
      {
        if k > 0 {
          assert messages[k] == messages[1..][k - 1];
          assert flags[k] == flags[1..][k - 1];
          assert messages[k] != messages[0];
        }
      }
      if Select(flags, messages) == [] {
        forall k | 0 <= k < |flags|
          ensures !flags[k]
        {
          if k > 0 {
            assert flags[k] == flags[1..][k - 1];
          }
        }
      }
    }
  }

  /** The article messages are pairwise distinct. */
  lemma MessagesDistinct()
    ensures forall i, j :: 0 <= i < j < 4 ==> ArticleMessages[i] != ArticleMessages[j]
  {
    assert TitleRequired[0] != ContentRequired[0];
    assert TitleRequired[0] != ExcerptRequired[0];
    assert TitleRequired[0] != CategoryRequired[0];
    assert ContentRequired[0] != ExcerptRequired[0];
    assert ContentRequired[0] != CategoryRequired[0];
    assert ExcerptRequired[0] != CategoryRequired[0];
  }

  /**
   `validateArticle`: one message per missing field among title, content,
   excerpt and category, in that order; no message for anything else.
   */
  function ValidateArticle(input: ArticleInput): (errors: seq<string>)
    ensures |errors| <= 4
    ensures IsSubsequence(errors, ArticleMessages)
    ensures TitleRequired in errors <==> IsMissing(input.title)
    ensures ContentRequired in errors <==> IsMissing(input.content)
    ensures ExcerptRequired in errors <==> IsMissing(input.excerpt)
    ensures CategoryRequired in errors <==> IsMissing(input.category)
    ensures errors == [] <==> (!IsMissing(input.title) && !IsMissing(input.content)
                            && !IsMissing(input.excerpt) && !IsMissing(input.category))
  {
    var missing := [IsMissing(input.title), IsMissing(input.content),
                    IsMissing(input.excerpt), IsMissing(input.category)];
    MessagesDistinct();
    SelectSpec(missing, ArticleMessages);
    var errors := Select(missing, ArticleMessages);
    assert ArticleMessages[0] in errors <==> missing[0];
    assert ArticleMessages[1] in errors <==> missing[1];
    assert ArticleMessages[2] in errors <==> missing[2];
    assert ArticleMessages[3] in errors <==> missing[3];
    errors
  }

  /** Only title, content, excerpt and category influence the article validator. */
  lemma ValidateArticleIgnoresOtherFields(a: ArticleInput, b: ArticleInput)
    requires a.title == b.title && a.content == b.content
    requires a.excerpt == b.excerpt && a.category == b.category
    ensures ValidateArticle(a) == ValidateArticle(b)
  {
  }

  /** `validateCategory`: exactly one message when the name is missing, none otherwise. */
  function ValidateCategory(input: CategoryInput): (errors: seq<string>)
    ensures |errors| <= 1
    ensures errors == [] <==> !IsMissing(input.name)
    ensures errors != [] ==> errors == [CategoryNameRequired]
  {
    if IsMissing(input.name) then [CategoryNameRequired] else []
  }
}

=== FILE: text.dfy ===
/**
 The string primitives of JavaScript that the blog relies on, stated on
 `string` (a sequence of code points): `String.prototype.trim`,
 `toLowerCase` (ASCII letters only), `includes`, `split` on one character and
 `Array.prototype.join`.
 */
module Text {

  /**
   The code points `String.prototype.trim` strips: the WhiteSpace and
   LineTerminator productions of ECMA-262 (tab, vertical tab, form feed, the
   space separators of Unicode category Zs, the byte order mark, line feed,
   carriage return, line and paragraph separators).
   */
  predicate IsWhitespace(c: char) {
    || c == ' ' || '\t' <= c <= '\r' || c == '\U{00A0}' || c == '\U{1680}'
    || '\U{2000}' <= c <= '\U{200A}' || c == '\U{2028}' || c == '\U{2029}'
    || c == '\U{202F}' || c == '\U{205F}' || c == '\U{3000}' || c == '\U{FEFF}'
  }

  /** Every character of `s` is whitespace (vacuously true of ""). */
  predicate AllWhitespace(s: string) {
    forall i :: 0 <= i < |s| ==> IsWhitespace(s[i])
  }

  /** `s` neither starts nor ends with whitespace. */
  predicate IsTrimmed(s: string) {
    s == [] || (!IsWhitespace(s[0]) && !IsWhitespace(s[|s| - 1]))
  }

  /** `s` with its longest whitespace prefix removed. */
  function TrimStart(s: string): (r: string)
    ensures |r| <= |s|
    decreases |s|
  {
    if s != [] && IsWhitespace(s[0]) then TrimStart(s[1..]) else s
  }

  /** `TrimStart` keeps a suffix, removes only whitespace, and stops at a non-whitespace character. */
  lemma {:induction false} TrimStartFacts(s: string)
    ensures var r := TrimStart(s);
      && r == s[|s| - |r|..]
      && (r == [] || !IsWhitespace(r[0]))
      && AllWhitespace(s[..|s| - |r|])
    decreases |s|
  {
    if s != [] && IsWhitespace(s[0]) {
      TrimStartFacts(s[1..]);
      var r := TrimStart(s);
      var n := |s| - |r|;
      assert s[1..][|s| - 1 - |r|..] == s[n..];
      forall i | 0 <= i < n
        ensures IsWhitespace(s[..n][i])
      {
        if i > 0 {
          assert s[..n][i] == s[1..][..n - 1][i - 1];
        }
      }
    }
  }

  /** `s` with its longest whitespace suffix removed. */
  function TrimEnd(s: string): (r: string)
    ensures |r| <= |s|
    decreases |s|
  {
    if s != [] && IsWhitespace(s[|s| - 1]) then TrimEnd(s[..|s| - 1]) else s
  }

  /** `TrimEnd` keeps a prefix, removes only whitespace, and stops at a non-whitespace character. */
  lemma {:induction false} TrimEndFacts(s: string)
    ensures var r := TrimEnd(s);
      && r == s[..|r|]
      && (r == [] || !IsWhitespace(r[|r| - 1]))
      && AllWhitespace(s[|r|..])
    decreases |s|
  {
    if s != [] && IsWhitespace(s[|s| - 1]) {
      var s' := s[..|s| - 1];
      TrimEndFacts(s');
      var r := TrimEnd(s);
      assert s'[..|r|] == s[..|r|];
      forall i | 0 <= i < |s| - |r|
        ensures IsWhitespace(s[|r|..][i])
      {
        if i < |s| - 1 - |r| {
          assert s[|r|..][i] == s'[|r|..][i];
        }
      }
    }
  }

  /** `r` is `s` with some whitespace prefix and some whitespace suffix cut off. */
  predicate IsWhitespaceCut(s: string, r: string) {
    exists a, b :: 0 <= a <= b <= |s| && r == s[a..b] && AllWhitespace(s[..a]) && AllWhitespace(s[b..])
  }

  /**
   `String.prototype.trim`: the result is `s` with a whitespace prefix and a
   whitespace suffix cut off, it is trimmed (so both cuts are the longest
   possible), and it is empty exactly when `s` is all whitespace.
   */
  function Trim(s: string): (r: string)
    ensures IsTrimmed(r)
    ensures |r| <= |s|
    ensures r == [] <==> AllWhitespace(s)
    ensures IsWhitespaceCut(s, r)
  {
    var t := TrimStart(s);
    var r := TrimEnd(t);
    TrimStartFacts(s);
    TrimEndFacts(t);
    TrimEmptyIffAllWhitespace(s);
    var a := |s| - |t|;
    var b := a + |r|;
    assert r == s[a..b] && s[b..] == t[|r|..];
    r
  }

  lemma TrimEmptyIffAllWhitespace(s: string)
    ensures TrimEnd(TrimStart(s)) == [] <==> AllWhitespace(s)
  {
    var t := TrimStart(s);
    var r := TrimEnd(t);
    var n := |s| - |t|;
    TrimStartFacts(s);
    TrimEndFacts(t);
    assert t == s[n..];
    if r == [] {
      forall i | 0 <= i < |s|
        ensures IsWhitespace(s[i])
      {
        assert s[..n][i] == s[i];
      }
    }
  }

  /** Whitespace padding in front of a trimmed string is exactly what `trim` removes. */
  lemma {:induction false} TrimPadded(p: string, t: string)
    requires AllWhitespace(p) && IsTrimmed(t)
    ensures Trim(p + t) == t
    decreases |p|
  {
    if p == [] {
      assert p + t == t;
    } else if t == [] {
      assert p + t == p;
    } else {
      TrimStartPadded(p, t);
      assert TrimEnd(t) == t;
    }
  }

  lemma {:induction false} TrimStartPadded(p: string, t: string)
    requires AllWhitespace(p) && t != [] && !IsWhitespace(t[0])
    ensures TrimStart(p + t) == t
    decreases |p|
  {
    if p == [] {
      assert p + t == t;
    } else {
      assert (p + t)[1..] == p[1..] + t;
      TrimStartPadded(p[1..], t);
    }
  }

  /** A value is blank when it trims to the empty string. */
  predicate IsBlank(s: string) {
    Trim(s) == []
  }

  /** ASCII case folding of one character, as `toLowerCase` does for A–Z. */
  function LowerChar(c: char): char {
    if 'A' <= c <= 'Z' then (c as int + 32) as char else c
  }

  /** `String.prototype.toLowerCase`, restricted to the ASCII letters. */
  function Lower(s: string): (r: string)
    ensures |r| == |s|
  {
    seq(|s|, i requires 0 <= i < |s| => LowerChar(s[i]))
  }

  /** Lowering twice is lowering once: lowered text contains no upper-case ASCII letter. */
  lemma LowerIdempotent(s: string)
    ensures Lower(Lower(s)) == Lower(s)
    ensures forall i :: 0 <= i < |s| ==> !('A' <= Lower(s)[i] <= 'Z')
  {
  }

  /** `t` occurs in `s` starting at index `i`. */
  predicate OccursAt(s: string, t: string, i: int) {
    0 <= i && i + |t| <= |s| && s[i..i + |t|] == t
  }

  /** `String.prototype.includes`: `t` is a prefix of `s` or of one of its suffixes. */
  predicate Includes(s: string, t: string)
    decreases |s|
  {
    t <= s || (s != [] && Includes(s[1..], t))
  }

  /** `Includes` holds exactly when `t` occurs at some position of `s`. */
  lemma IncludesIffOccurs(s: string, t: string)
    ensures Includes(s, t) <==> exists i :: OccursAt(s, t, i)
  {
    if Includes(s, t) {
      var i := IncludesAt(s, t);
    }
    forall i | OccursAt(s, t, i)
      ensures Includes(s, t)
    {
      OccursIncludes(s, t, i);
    }
  }

  /** An inclusion has a position. */
  lemma {:induction false} IncludesAt(s: string, t: string) returns (i: int)
    requires Includes(s, t)
    ensures OccursAt(s, t, i)
    decreases |s|
  {
    if t <= s {
      i := 0;
      assert s[..|t|] == t;
    } else {
      var j := IncludesAt(s[1..], t);
      assert s[1..][j..j + |t|] == s[j + 1..j + 1 + |t|];
      i := j + 1;
    }
  }

  /** An occurrence at any position is an inclusion. */
  lemma {:induction false} OccursIncludes(s: string, t: string, i: int)
    requires OccursAt(s, t, i)
    ensures Includes(s, t)
    decreases i
  {
    if i == 0 {
      assert s[..|t|] == t;
      assert t <= s;
    } else {
      assert s[1..][i - 1..i - 1 + |t|] == s[i..i + |t|];
      OccursIncludes(s[1..], t, i - 1);
    }
  }

  /** The empty string is included in every string. */
  lemma IncludesEmpty(s: string)
    ensures Includes(s, "")
  {
  }

  /**
   `Array.prototype.join(sep)` on strings: the parts with `sep` between
   neighbours ("" for no parts).
   */
  function Join(parts: seq<string>, sep: string): string
    decreases |parts|
  {
    if |parts| == 0 then ""
    else if |parts| == 1 then parts[0]
    else parts[0] + sep + Join(parts[1..], sep)
  }

  /**
   `String.prototype.split(sep)` for a one-character separator: the maximal
   separator-free segments, so there is always at least one ("" splits to [""]).
   */
  function Split(s: string, sep: char): (r: seq<string>)
    ensures |r| >= 1
    ensures forall i :: 0 <= i < |r| ==> sep !in r[i]
    decreases |s|
  {
    if s == [] then [""]
    else
      var rest := Split(s[1..], sep);
      if s[0] == sep then [""] + rest
      else [[s[0]] + rest[0]] + rest[1..]
  }

  /** Joining the segments of a split with the separator restores the string. */
  lemma {:induction false} JoinSplit(s: string, sep: char)
    ensures Join(Split(s, sep), [sep]) == s
    decreases |s|
  {
    if s != [] {
      var rest := Split(s[1..], sep);
      JoinSplit(s[1..], sep);
      if s[0] == sep {
        assert ([""] + rest)[1..] == rest;
      } else if |rest| == 1 {
        assert Join(rest, [sep]) == rest[0];
      } else {
        var parts := [[s[0]] + rest[0]] + rest[1..];
        assert parts[1..] == rest[1..];
        assert Join(rest, [sep]) == rest[0] + [sep] + Join(rest[1..], [sep]);
      }
    }
  }

  /** A separator-free string is a single segment. */
  lemma {:induction false} SplitNoSeparator(a: string, sep: char)
    requires sep !in a
    ensures Split(a, sep) == [a]
    decreases |a|
  {
    if a != [] {
      SplitNoSeparator(a[1..], sep);
      assert [a[0]] + a[1..] == a;
    }
  }

  /** A separator-free head becomes the first segment of the split. */
  lemma {:induction false} SplitAfterSegment(a: string, sep: char, b: string)
    requires sep !in a
    ensures Split(a + [sep] + b, sep) == [a] + Split(b, sep)
    decreases |a|
  {
    var s := a + [sep] + b;
    if a == [] {
      assert s[1..] == b;
    } else {
      assert s[1..] == a[1..] + [sep] + b;
      SplitAfterSegment(a[1..], sep, b);
      assert [a[0]] + a[1..] == a;
    }
  }

  /** Splitting undoes joining when no part contains the separator. */
  lemma {:induction false} SplitJoin(parts: seq<string>, sep: char)
    requires |parts| >= 1
    requires forall i :: 0 <= i < |parts| ==> sep !in parts[i]
    ensures Split(Join(parts, [sep]), sep) == parts
    decreases |parts|
  {
    if |parts| == 1 {
      SplitNoSeparator(parts[0], sep);
    } else {
      SplitJoin(parts[1..], sep);
      SplitAfterSegment(parts[0], sep, Join(parts[1..], [sep]));
      assert [parts[0]] + parts[1..] == parts;
    }
  }
}
